=== FILE: README.md ===
# photoWaterMark in Dafny

A model of the core of photoWaterMark. This small tool stamps each photo with the date it was taken.

**What it does:**
- It reads the capture date from the Exif metadata, or falls back to the file's modification time.
- It renders the date as `YYYY年MM月DD日` and draws it at one of five anchor positions.
- It can optionally resize the image, then saves it under a new name in an output folder.
- A batch runs over the files of a directory (the command line) or over a list picked in a Tk GUI.
- The GUI keeps a duplicate-free list of supported images and reads its export settings from text fields.

**Modules.** There is one Dafny module per concern, one file each:

| file | module | models |
|---|---|---|
| `position.dfy` | `Position` | `calculate_position`: five anchors, a 20 px margin, and a fallback to top-left |
| `resize.dfy` | `Resize` | the target-size arithmetic of `resize_image`; the truthiness test in `add_watermark` that decides whether to resize |
| `naming.dfy` | `Naming` | `build_output_filename`; the choice of format and encoder at the end of `add_watermark` |
| `exif_date.dfy` | `ExifDate` | `get_exif_datetime` and `get_watermark_text`: the `strptime('%Y:%m:%d %H:%M:%S')` grammar, the label format, the fallback chain |
| `engine.dfy` | `Engine` | `add_watermark`, as a method that reassigns the image step by step, proved equal to a declarative `Render` |
| `batch.dfy` | `Batch` | `process_files` and `process_directory`: the early exits, the overwrite-safety check, the per-file loop, the success counter |
| `gui.dfy` | `Gui` | the `WatermarkGUI` file list (`files`, `thumbnails`): `add_paths`, `_remove_item`, `clear_files` |
| `gui_options.dfy` | `GuiOptions` | `_gather_options`: entry-field text to export options, with defaults |
| `float_text.dfy` | `FloatText` | Python's `float(text)`, as `_gather_options` uses it |
| `text.dfy`, `paths.dfy`, `wrappers.dfy` | `Text`, `Paths`, `Wrappers` | `str.strip`, the whitespace `int()`/`float()` skip, ASCII `lower`/`upper`, digit strings, and `pathlib`'s components, `name`/`suffix`/`stem` and `/` join |

**How effects are modelled.** The file system and Pillow are parameters:
- `Batch.World` says:
  - how a directory resolves;
  - whether `mkdir` succeeds;
  - what each source file holds: its image size and mode, its Exif tables and its mtime;
  - whether each save succeeds;
  - what each glob returns;
  - how large the text's bounding box is.
- An image is its size and its Pillow mode.
- A written file is described by a `Saved` record: path, size, mode, encoder, quality, label, position, font size and colour.

**Form of the code.** The imperative parts of the source are methods with loops and invariants, each proved against a specification function:
- `add_watermark`;
- the two batch loops;
- the glob-gathering loop;
- the GUI list methods.

The GUI list is a class whose methods update `files` and `thumbnails` in place. The expression-only parts are functions, with lemmas about them.

## Model

| member | source | states |
|---|---|---|
| Position.CalculatePosition | photo_watermark.py:49-64 | Right and bottom anchors leave exactly the 20 px margin to that edge. Left and top anchors, and any unknown name, sit exactly 20 px from the left and top. `center` splits the spare room into halves differing by at most one pixel. |
| Position.UnknownAnchorIsTopLeft | photo_watermark.py:63-64 | Any string other than the four other anchor names gives (20, 20). |
| Position.InsideWithMargin | photo_watermark.py:55-60 | For every anchor: if the text box fits with room for both margins, it lies inside the image at least 20 px from every edge. |
| Position.CenterInside | photo_watermark.py:61-62 | `center` keeps a text box that fits the image inside it, with non-negative coordinates. |
| Resize.ResizeImage | photo_watermark.py:131-153 | `width`/`height` set that side to the value and scale the other side to the floored aspect ratio, at least 1. `percent` scales both sides, floored, at least 1. Other modes, zero sides and non-positive targets leave the size unchanged. A positive size stays positive. |
| Resize.ApplyResize | photo_watermark.py:83-84 | Without a truthy mode and value the size is unchanged. A positive size stays positive. |
| Resize.SameWidthIsIdentity | photo_watermark.py:134-138 | Resizing to the width an image already has returns its size. |
| Resize.SameHeightIsIdentity | photo_watermark.py:139-143 | Resizing to the height an image already has returns its size. |
| Resize.ResizeIdempotent | photo_watermark.py:131-153 | After any resize, a width or height resize to the side just produced changes nothing. |
| Resize.ZeroPercentIsSkipped | photo_watermark.py:83-84 | For every image, `percent` 0 would give 1 x 1, but a zero value is falsy, so the image keeps its size. |
| Naming.ExtensionOf | photo_watermark.py:114 | `suffix.lstrip('.')` is the suffix without its single dot, and contains no dot. It is empty exactly when the name has no suffix. |
| Naming.OutputExtension | photo_watermark.py:281-283 | The extension is the requested format if given, else the original extension. It is lower-case and never `jpg`, because `jpg` becomes `jpeg`. |
| Naming.BuildOutputFilename | photo_watermark.py:279-284 | The name is prefix, original stem and suffix, then a dot, then the output extension. |
| Naming.SaveFormat | photo_watermark.py:114 | The format name handed to the encoder choice is lower-case, so the comparisons with `jpg`, `jpeg` and `png` ignore case. |
| Naming.EncoderFor | photo_watermark.py:115-125 | JPEG exactly for `jpg`/`jpeg`, PNG exactly for `png`, otherwise Pillow's inference. |
| Naming.OutputNameRoundTrip | photo_watermark.py:279-284 | Read back with `pathlib`, a built name's extension is the output extension and its stem is prefix + original stem + suffix. |
| Naming.EncoderMatchesOutputName | photo_watermark.py:114-125 | Saving under the built name picks the encoder its extension calls for, with or without an explicit format. |
| Naming.SameOutputNameSameStem | photo_watermark.py:279-284 | Two originals get the same output name only if their stems are equal. |
| ExifDate.ParseExifDateTime | photo_watermark.py:28-29 | `strptime` succeeds only on text of at least 14 characters, and yields a valid calendar moment. |
| ExifDate.DateLabel | photo_watermark.py:43 | The label is 11 characters: `年`, `月` and `日` at fixed places, digits elsewhere. The year, month and day read back from it. |
| ExifDate.ParseExifString | photo_watermark.py:27-29 | The Exif form `YYYY:MM:DD HH:MM:SS` of any moment parses back to that moment. |
| ExifDate.ExifDateTimeAsWritten | photo_watermark.py:21-37 | As the code runs, a capture date is found only when the Exif IFD holds DateTimeOriginal. |
| ExifDate.ExifDateTime | photo_watermark.py:21-37 | A capture date comes only from DateTimeOriginal, or else DateTime. When DateTimeOriginal is present, it alone decides. |
| ExifDate.WatermarkText | photo_watermark.py:39-47 | With the corrected lookup: a label of 11 characters is always produced. It is the capture date's label when one is found, and the mtime's otherwise. |
| ExifDate.WatermarkTextAsWritten | photo_watermark.py:21-47 | With the lookup as written: a label of 11 characters is always produced. It is the label of the parsed DateTimeOriginal when there is one, and the mtime's otherwise. |
| ExifDate.LabelsDifferOnlyOnDateTime | photo_watermark.py:21-47 | The label as written and the corrected label differ exactly for a file that has no DateTimeOriginal but has a DateTime that parses to a date other than the mtime's. |
| ExifDate.CaptureDateDecidesLabel | photo_watermark.py:25-43 | A DateTimeOriginal that parses, in any form `strptime` accepts, decides the label under both lookups, whatever DateTime and the mtime say. |
| ExifDate.CanonicalCaptureDateDecidesLabel | photo_watermark.py:25-43 | A DateTimeOriginal written in the Exif form of a moment gives that moment's date as the label. |
| ExifDate.DateTimeIsFallback | photo_watermark.py:30-33 | Without DateTimeOriginal, a well-formed DateTime gives the capture date. |
| ExifDate.MalformedCaptureDateFallsBackToMtime | photo_watermark.py:27-47 | A DateTimeOriginal that does not parse is not rescued by DateTime: the label comes from the mtime. |
| ExifDate.DateTimeIgnoredAsWritten | photo_watermark.py:30-33 | For a file whose only date is DateTime, the code as written finds no capture date, but the intended lookup does. |
| Engine.Render | photo_watermark.py:66-129 | A file is written exactly when the image opens and the save succeeds. It goes to the given path, with the resized size, the date label, and the encoder chosen from the format. A quality is used only for JPEG. The mode is RGBA exactly for images with alpha not saved as JPEG, otherwise RGB. The font size and colour are the requested ones. |
| Engine.RenderedAt | photo_watermark.py:101-110 | The label sits where `calculate_position` puts the measured text box in the resized image. |
| Engine.LabelInsideWrittenImage | photo_watermark.py:101-110 | If the text box fits the written image with room for the 20 px margin on both sides, the label lies inside it at least 20 px from every edge, for every anchor. |
| Engine.AddWatermark | photo_watermark.py:66-129 | The step-by-step pipeline produces exactly `Render`'s outcome. |
| Batch.WatermarkOne | photo_watermark.py:264-266 | One turn of the loop makes the planned call for the file and returns what `add_watermark` does for it. |
| Batch.PlannedJobs | photo_watermark.py:262-266 | The batch plans one call per file. |
| Batch.PlannedJobAt | photo_watermark.py:262-266 | The i-th call is for the i-th file, in list order. It writes to `output_dir / build_output_filename(name, ...)`. |
| Batch.OutcomeAt | photo_watermark.py:267-273 | The i-th outcome is what `add_watermark` does for the i-th call. |
| Batch.WrittenCount | photo_watermark.py:261-273 | The count of files written is at most the batch size, and equals it exactly when every file was written. |
| Batch.WatermarkEach | photo_watermark.py:261-277 | The loop makes exactly the planned calls and gets their outcomes. `success_count` ends at the number of files. |
| Batch.ExportsIntoSourceIff | photo_watermark.py:253-257 | A non-empty batch is rejected exactly when every file's directory resolves to the output directory. |
| Batch.TwoDirectoriesNeverRejected | photo_watermark.py:253-257 | A batch with files from two resolved directories is never rejected. |
| Batch.ProcessFiles | photo_watermark.py:242-277 | An empty list returns first. An unsafe batch returns before `mkdir`. Otherwise a failed `mkdir` ends it; if `mkdir` succeeds, every planned call runs and the counts are reported. The directory is created exactly when the batch finishes. |
| Batch.CollidingJobsShareStem | photo_watermark.py:264-266 | Two calls of a batch write the same output file only if their sources share a stem. |
| Batch.GlobbedMembers | photo_watermark.py:196-199 | A name is in the image list exactly when it matches one extension's pattern, as written or upper-cased. |
| Batch.CaseBlindGlobListsTwice | photo_watermark.py:196-199 | Where a pattern and its upper-case form match the same files, each such image is listed at least twice. |
| Batch.GatherImages | photo_watermark.py:196-199 | The loop builds exactly the list `Globbed` describes. |
| Batch.ProcessDirectory | photo_watermark.py:173-240 | The early exits are, in order: a missing input, an output directory equal to the input, a failed `mkdir`, no images. Without an output directory, the output goes to `DefaultOutputDir(input)`, which is `input_path / f"{input_path.name}_watermark"` as `pathlib` spells it. The directory is created exactly when the run gets past `mkdir`. Otherwise one call runs per globbed image, and the counts are reported. |
| Batch.DefaultOutputDirOfCurrent | photo_watermark.py:178-191 | The current directory, written `.` or left empty, has the empty name. Its default output directory is `_watermark`. |
| Batch.DefaultOutputDirOfName | photo_watermark.py:178-191 | A directory given as one component `d` exports to `d/d_watermark`. Trailing `/` or `/.` after `d` change nothing. |
| Paths.Name | photo_watermark.py:191 | `Path(p).name` is the last component that is neither empty nor `.`, or empty when there is none. It never contains `/` and is never `.`. |
| Paths.ChildOfSingle | photo_watermark.py:191 | Joining a component onto a path of one relative component `d` gives `d/c`. |
| Paths.TrailingIgnored | photo_watermark.py:178-191 | For a relative path, a trailing `/` or `/.` changes neither its components nor its root. |
| Batch.UnreadableFileStillCounted | photo_watermark.py:266-273 | A one-file batch whose file cannot be opened writes nothing, yet counts one success. |
| FloatText.ParseFloat | gui.py:422-450 | Text is no number when nothing is left after the whitespace `float()` skips. That whitespace is ASCII tab to carriage return, space, and the non-ASCII characters `str.isspace` accepts, but not U+001C..U+001F. |
| FloatText.ReadsDecimal | gui.py:422-425 | `float(str(n))` is `n`. |
| FloatText.ReadsFraction | gui.py:422-425 | `float("w.f")` is the digits of `w` and `f` together, scaled down by ten per fractional digit. That integer is `w` shifted left by the length of `f`, plus `f`. |
| FloatText.WorthScaledBack | gui.py:422-425 | Scaling a fractional reading back up by ten per fractional digit recovers the integer its digits spell. |
| FloatText.FractionScaledBack | gui.py:422-425 | `float("w.f")` is a finite number which, scaled up by ten per digit of `f`, is `w` shifted left past `f`, plus `f`. |
| FloatText.ReadInt | gui.py:451-452 | For text whose trimmed form is all digits, `int()` succeeds exactly when skipping its own whitespace leaves that same trimmed text. It then gives the value of those digits. |
| FloatText.SeparatorNotSkipped | gui.py:450-452 | `"\x1c5"` trims to `5`, but `int()` and `float()` both reject it. |
| FloatText.WideSpaceSkipped | gui.py:450 | `float()` reads `"\u30005"`, with an ideographic space before the digit, as 5. |
| Text.NumberStripAgrees | gui.py:451-452 | Where the text left after `int()`'s whitespace is all digits, it is exactly what `strip()` leaves. |
| Text.NumberStripOfStripped | gui.py:417-425 | `float()` reads text already passed through `strip()` as it stands. |
| FloatText.MinusNegates | gui.py:422-425 | A leading minus negates what the rest reads as, including for infinities, and keeps failures as failures. |
| Gui.AddOne | gui.py:278-285 | A path is appended exactly when it is not yet listed and is accepted; otherwise the list is unchanged. |
| Gui.AddAllKeepsInvariant | gui.py:275-287 | Adding paths keeps the list free of repeats and of unsupported files, and only appends. |
| Gui.AddAllMembers | gui.py:275-287 | A file is listed after adding exactly when it was listed before, or is the resolved form of an accepted input path. |
| Gui.AddAllIdempotent | gui.py:275-287 | Adding the same paths twice adds nothing the second time. |
| Gui.RemoveFirstSplits | gui.py:314-315 | Removing a listed path drops it and keeps the other entries in order, free of repeats. |
| Gui.RemoveAbsent | gui.py:314-315 | Removing a path that is not listed changes nothing. |
| Gui.WatermarkGui.constructor | gui.py:25-36 | The list and thumbnails start empty. The acceptance test is the `SUPPORTED_EXTS` suffix check. |
| Gui.WatermarkGui.AddPaths | gui.py:275-287 | After the call, the list is the old list followed by the newly accepted paths, in input order. `added` is the growth. Thumbnails are kept for the added files that have a preview. The list invariant holds. |
| Gui.WatermarkGui.RemoveItem | gui.py:309-318 | The path leaves the list (first occurrence) and the thumbnails; the rest is unchanged. The invariant holds. |
| Gui.WatermarkGui.ClearFiles | gui.py:320-325 | The list and the thumbnails are empty. |
| GuiOptions.Trunc | gui.py:430 | `int()` of a slider reading truncates toward zero. |
| GuiOptions.WholeNumber | gui.py:420-421 | A size field gives a number exactly when its trimmed text is all digits. |
| GuiOptions.LogoSize | gui.py:451-452 | A logo size raises exactly when its trimmed text is all digits but `int()`'s own whitespace skipping leaves something else. Otherwise it equals the trimmed reading `WholeNumber`. |
| GuiOptions.Percent | gui.py:422-425 | The percentage is missing exactly when the trimmed text is blank or not a number. |
| GuiOptions.OrNone | gui.py:439 | A field gives no value exactly when blank; otherwise its trimmed text. |
| GuiOptions.AssembleNames | gui.py:414-438 | `auto` maps to no format, and any other format is passed on. The output directory is trimmed. Prefix, suffix and position pass through. A quality slider reading in 0..100 gives an integer in 0..100. |
| GuiOptions.AssembleSizes | gui.py:417-452 | Each size field, for the image and the logo, gives a number exactly when its trimmed text is all digits, and that number is the value of those digits. The percentage and logo scale read earlier are passed on. |
| GuiOptions.AssembleBlanks | gui.py:439-449 | Blank text, font and logo-path fields give none. The text is passed on trimmed. |
| GuiOptions.GatherOptions | gui.py:413-454 | Fails exactly when the logo scale is neither blank nor a number, or when `int()` raises on a logo size. A bad scale is the error reported when both occur. Otherwise a blank scale gives none, and a readable one gives its value. Each logo size is what `int()` read. The resize percentage is none exactly when its trimmed text is blank or not a number. All other options are built by `Assemble`, whose lemmas state them. |
| GuiOptions.WholeNumberReadsDecimal | gui.py:420-421 | A size field holding `str(n)`, with any surrounding whitespace, gives `n`. |
| GuiOptions.ColourDefaults | gui.py:436-447 | A blank colour field becomes its default: white for the colour and the text colour, black for the stroke and shadow colours. A filled one is used trimmed. No colour handed on is blank or padded. |
| GuiOptions.SeparatorBeforeLogoScale | gui.py:450 | A logo scale of `"\x1c5"` makes the options fail as not a number. |
| GuiOptions.SeparatorBeforeLogoWidth | gui.py:450-451 | With a blank scale, a logo width of `"\x1c5"` makes the options fail as a bad size. |
| GuiOptions.PercentReadsDecimal | gui.py:422-425 | A percentage typed as `str(n)` becomes the number `n`. |

## Left out

- Pillow's pixel work is not modelled: `textbbox`, `draw.text`, `resize`, `convert`, `save`. An image is its size and mode. The text's bounding box is the `measure` parameter, which also stands for `get_font`. `get_font` never fails, since it falls back to the default font.
- File-system and metadata access are parameters of `Batch.World` and `Engine.SourceFile`, not modelled operations:
  - `piexif.load`;
  - `os.path.getmtime` and `datetime.fromtimestamp`, given as a moment in local time;
  - `Path.exists` and `Path.resolve`;
  - `mkdir`, `glob`, `Image.open`, `img.save`.
- `Resize.ResizeImage`: the value is an integer. The floating-point rounding of `int(h * (target_w / w))` and of `float(value) / 100.0` is not modelled: the exact floor is used.
- `Resize.ResizeImage`: the command line passes `--resize-value` as text, which `resize_image` converts with `int()` or `float()`. Fractional percentages are not modelled. Neither is the text `"0"`, which is truthy and so passes the check that a zero integer fails.
- `FloatText.ParseFloat`: finite values are exact reals. Rounding to a double and overflow to infinity are not modelled. Only ASCII digits are recognised.
- `GuiOptions.WholeNumber`: only ASCII digits count as digits. `str.isdigit` also accepts characters such as superscript two, for which `int()` then raises. That exception path is not modelled.
- `Gui.Supported`: lower-casing is ASCII only. This is exact for deciding membership in the all-ASCII extension set.
- Naming.OutputExtension: `str.lower` is modelled by `Text.Lower`, which folds only ASCII letters. A format or extension with non-ASCII capitals, such as `Ä`, keeps them here.
- Naming.SaveFormat: the same ASCII-only lower-casing as `Naming.OutputExtension`.
- ExifDate.ParseExifDateTime: only ASCII digits are accepted. `_strptime`'s `\d` and `int()` also accept other Unicode decimal digits, such as Arabic-Indic ones.
- ExifDate.DateLabel: a year below 1000 is padded to four digits. CPython's `strftime('%Y')` on glibc writes such a year without padding, e.g. `999`.
- ExifDate.WatermarkText: uses the corrected lookup `ExifDate.ExifDateTime`. So do `Engine.Render`, `Engine.AddWatermark`, `Batch.ProcessFiles` and `Batch.ProcessDirectory`. A file whose only date is DateTime therefore gets that date in the model, where the source uses the mtime. `ExifDate.WatermarkTextAsWritten` gives the label as the source computes it, and `ExifDate.LabelsDifferOnlyOnDateTime` says exactly where the two labels differ.
- `Paths`: POSIX paths only: `/` is the one separator. The Windows flavour of `pathlib` is not modelled.
- Engine.AddWatermark and Engine.Render: a file fails only because it cannot be opened or saved. Other Pillow exceptions raised while drawing are not modelled, so the contracts' "written exactly when the image opens and the save succeeds" holds only for images on which drawing succeeds. The ordinary case is a colour name Pillow does not know: `draw.text` raises `ValueError` (photo_watermark.py:111), `add_watermark` swallows it, and nothing is written.
- `ExifDate.ExifDateTime`: tag values are taken as already-decoded text. A tag whose bytes are not UTF-8 would raise inside the `try` and give no date; this is not modelled.
- `Batch.ProcessDirectory`: the order in which the `supported_formats` set is iterated is not fixed by Python, so it is a parameter, `order`.
- `Gui.WatermarkGui.AddPaths`: the thumbnail widget and the status line are not modelled. `_add_thumbnail_item` is reduced to the `preview` parameter, which gives a thumbnail or none when the preview fails.
- `start_export` and its worker thread (gui.py:358-411) are not modelled: they are concurrency and widgets. The call passes keyword arguments that `process_files` does not declare, e.g. `resize_width`, `text_content` and `logo_path`. As written, every GUI export therefore raises `TypeError`, which the worker reports in an error box. The custom text, stroke, shadow, opacity and logo options have no implementation to model. `GuiOptions` stops at the options mapping.
- `GuiOptions.GatherOptions`: spin boxes are taken as the integers they hold. The error `IntVar.get` raises on non-integer text is not modelled.
- The other Tk parts are not modelled: layout, dialogs, the colour picker, drag and drop, `_collect_images_in_dir`, message boxes and status messages.
- Not modelled: `main` and its argument parsing (photo_watermark.py:287-324), the console `print` logging, and the smoke script `test_watermark.py`.

## Findings

| source | as written | input that shows it | evidently intended | confidence | as-written member | corrected member |
|---|---|---|---|---|---|---|
| photo_watermark.py:31-33 | The `elif` tests `piexif.ExifIFD.DateTime`, which piexif's Exif IFD table does not define: DateTime is tag 306 of the 0th IFD. The `AttributeError` is caught, and `None` is returned. | A JPEG whose only date tag is DateTime in the 0th IFD, with no DateTimeOriginal: the label uses the mtime. | Fall back to DateTime from the 0th IFD. | high; not executed | ExifDate.ExifDateTimeAsWritten | ExifDate.ExifDateTime |
| photo_watermark.py:266-273 | `success_count += 1` follows every `add_watermark` call. But `add_watermark` catches every exception itself, so the count is always the batch size. | A one-file batch whose file cannot be opened: it reports 1/1 and writes nothing. | Count the files actually written. | high; not executed | Batch.WatermarkEach | Batch.WrittenCount |

=== FILE: batch.dfy ===
/**
  * Batch orchestration: `process_files` (a list of files, used by the GUI)
  * and `process_directory` (every image of one folder, used by the command
  * line). Both refuse to run when the output would land in the source
  * folder, create the output folder, then run `add_watermark` once per
  * file, in order, counting successes.
  *
  * The file system is a parameter (`World`): how directories resolve,
  * whether `mkdir` succeeds, what each source file holds and whether each
  * save succeeds.
  */
module Batch {
  import opened Wrappers
  import opened Naming
  import opened Engine
  import Paths
  import Text

  /** The file system as the batch sees it. `canCreate` answers for the
      `mkdir` each batch makes: `process_files` passes `parents=True` and
      `process_directory` does not, so for an output directory whose parent
      is missing the first succeeds and the second raises; a `World` in
      which both are asked about such a directory describes only one. */
  datatype World = World(
    resolve: string -> string,         // Path(d).resolve()
    canCreate: string -> bool,         // whether the batch's mkdir(d) succeeds
    source: FilePath -> SourceFile,    // what a file holds when opened
    writable: FilePath -> bool,        // whether img.save succeeds there
    glob: (string, string) -> seq<string>,  // names Path(d).glob(pattern) yields, in order
    measure: (string, int) -> Extent)  // the font's text bounding boxes

  /** How a batch ends. `Finished` carries the count the source prints
      (`success_count`), the number of files actually written, and the
      number of files. The other results are the early returns and the
      exception `mkdir` may raise. */
  datatype BatchResult =
    | InputMissing
    | NoFiles
    | UnsafeOutputDir
    | MkdirFailed
    | NoImages
    | Finished(reported: nat, written: nat, total: nat)

  /** One `add_watermark` call: its source and output paths. */
  datatype Job = Job(source: FilePath, output: FilePath)

  function JobFor(f: FilePath, outputDir: string, prefix: string, suffix: string, style: Style): Job
  {
    Job(f, FilePath(outputDir, BuildOutputFilename(f.name, prefix, suffix, style.outputFormat)))
  }

  /** The calls a batch makes, built file by file. */
  function PlannedJobs(files: seq<FilePath>, outputDir: string, prefix: string, suffix: string,
                       style: Style): (jobs: seq<Job>)
    ensures |jobs| == |files|
  {
    if files == [] then []
    else PlannedJobs(files[..|files| - 1], outputDir, prefix, suffix, style) +
         [JobFor(files[|files| - 1], outputDir, prefix, suffix, style)]
  }

  /** One call per file, in list order: the `i`-th call processes the
      `i`-th file into `output_dir / build_output_filename(...)`. */
  lemma {:induction false} PlannedJobAt(files: seq<FilePath>, outputDir: string, prefix: string, suffix: string,
                                        style: Style, i: nat)
    requires i < |files|
    ensures PlannedJobs(files, outputDir, prefix, suffix, style)[i] == JobFor(files[i], outputDir, prefix, suffix, style)
  {
    var init := files[..|files| - 1];
    if i < |files| - 1 {
      PlannedJobAt(init, outputDir, prefix, suffix, style, i);
    }
  }

  function RunJob(job: Job, style: Style, world: World): Outcome
  {
    Render(world.source(job.source), job.output, style, world.measure, world.writable(job.output))
  }

  /** The outcomes of the calls, built call by call. */
  function Outcomes(jobs: seq<Job>, style: Style, world: World): (r: seq<Outcome>)
    ensures |r| == |jobs|
  {
    if jobs == [] then []
    else Outcomes(jobs[..|jobs| - 1], style, world) + [RunJob(jobs[|jobs| - 1], style, world)]
  }

  /** The `i`-th outcome is what `add_watermark` does for the `i`-th call. */
  lemma {:induction false} OutcomeAt(jobs: seq<Job>, style: Style, world: World, i: nat)
    requires i < |jobs|
    ensures Outcomes(jobs, style, world)[i] == RunJob(jobs[i], style, world)
  {
    if i < |jobs| - 1 {
      OutcomeAt(jobs[..|jobs| - 1], style, world, i);
    }
  }

  /** The number of files a batch actually wrote: what `success_count`
      evidently means to count. It reaches the batch size exactly when
      every file was written. */
  function WrittenCount(outcomes: seq<Outcome>): (n: nat)
    ensures n <= |outcomes|
    ensures n == |outcomes| <==> forall i :: 0 <= i < |outcomes| ==> outcomes[i].Written?
  {
    if outcomes == [] then 0
    else WrittenCount(outcomes[..|outcomes| - 1]) + (if outcomes[|outcomes| - 1].Written? then 1 else 0)
  }

  /** The loop shared by `process_files` and `process_directory`: build
      each output name, call `add_watermark`, and add one to
      `success_count` after every call, which always returns normally. */
  method WatermarkEach(files: seq<FilePath>, outputDir: string, prefix: string, suffix: string,
                       style: Style, world: World)
    returns (successCount: nat, written: nat, jobs: seq<Job>, outcomes: seq<Outcome>)
    ensures jobs == PlannedJobs(files, outputDir, prefix, suffix, style)
    ensures outcomes == Outcomes(jobs, style, world)
    ensures successCount == |files|
    ensures written == WrittenCount(outcomes)
  {
    successCount, written, jobs, outcomes := 0, 0, [], [];
    var i := 0;
    while i < |files|
      invariant 0 <= i <= |files|
      invariant jobs == PlannedJobs(files[..i], outputDir, prefix, suffix, style)
      invariant outcomes == Outcomes(jobs, style, world)
      invariant successCount == i
      invariant written == WrittenCount(outcomes)
    {
      var job, outcome := WatermarkOne(files[i], outputDir, prefix, suffix, style, world);
      EachStep(files, i, outputDir, prefix, suffix, style, world, jobs, outcomes, outcome);
      jobs, outcomes := jobs + [job], outcomes + [outcome];
      if outcome.Written? {
        written := written + 1;
      }
      successCount := successCount + 1;
      i := i + 1;
    }
    assert files[..i] == files;
  }

  /** One turn of the loop: build the output name and call
      `add_watermark`. */
  method WatermarkOne(f: FilePath, outputDir: string, prefix: string, suffix: string, style: Style, world: World)
    returns (job: Job, outcome: Outcome)
    ensures job == JobFor(f, outputDir, prefix, suffix, style)
    ensures outcome == RunJob(job, style, world)
  {
    var output := FilePath(outputDir, BuildOutputFilename(f.name, prefix, suffix, style.outputFormat));
    outcome := AddWatermark(world.source(f), output, style, world.measure, world.writable(output));
    CallIsPlanned(f, outputDir, prefix, suffix, style, world, output, outcome);
    job := Job(f, output);
  }

  /** The call the loop makes for a file is the planned one. */
  lemma CallIsPlanned(f: FilePath, outputDir: string, prefix: string, suffix: string, style: Style, world: World,
                      output: FilePath, outcome: Outcome)
    requires output == FilePath(outputDir, BuildOutputFilename(f.name, prefix, suffix, style.outputFormat))
    requires outcome == Render(world.source(f), output, style, world.measure, world.writable(output))
    ensures Job(f, output) == JobFor(f, outputDir, prefix, suffix, style)
    ensures outcome == RunJob(JobFor(f, outputDir, prefix, suffix, style), style, world)
  {
  }

  /** One turn of the loop extends the planned calls, their outcomes and
      the count of files written by the next file. */
  lemma EachStep(files: seq<FilePath>, i: nat, outputDir: string, prefix: string, suffix: string, style: Style,
                 world: World, jobs: seq<Job>, outcomes: seq<Outcome>, outcome: Outcome)
    requires i < |files|
    requires jobs == PlannedJobs(files[..i], outputDir, prefix, suffix, style)
    requires outcomes == Outcomes(jobs, style, world)
    requires outcome == RunJob(JobFor(files[i], outputDir, prefix, suffix, style), style, world)
    ensures var next := jobs + [JobFor(files[i], outputDir, prefix, suffix, style)];
      && next == PlannedJobs(files[..i + 1], outputDir, prefix, suffix, style)
      && outcomes + [outcome] == Outcomes(next, style, world)
      && WrittenCount(outcomes + [outcome]) == WrittenCount(outcomes) + (if outcome.Written? then 1 else 0)
  {
    PlanStep(files, i, outputDir, prefix, suffix, style);
    OutcomesStep(jobs, JobFor(files[i], outputDir, prefix, suffix, style), style, world);
    WrittenStep(outcomes, outcome);
  }

  lemma PlanStep(files: seq<FilePath>, i: nat, outputDir: string, prefix: string, suffix: string, style: Style)
    requires i < |files|
    ensures PlannedJobs(files[..i + 1], outputDir, prefix, suffix, style) ==
      PlannedJobs(files[..i], outputDir, prefix, suffix, style) + [JobFor(files[i], outputDir, prefix, suffix, style)]
  {
    assert files[..i + 1][..i] == files[..i];
  }

  lemma OutcomesStep(jobs: seq<Job>, job: Job, style: Style, world: World)
    ensures Outcomes(jobs + [job], style, world) == Outcomes(jobs, style, world) + [RunJob(job, style, world)]
  {
    assert (jobs + [job])[..|jobs|] == jobs;
  }

  lemma WrittenStep(outcomes: seq<Outcome>, o: Outcome)
    ensures WrittenCount(outcomes + [o]) == WrittenCount(outcomes) + (if o.Written? then 1 else 0)
  {
    assert (outcomes + [o])[..|outcomes|] == outcomes;
  }

  /** Two calls of one batch write the same output file (the later one
      overwriting the earlier) only when their sources share a stem. */
  lemma {:induction false} CollidingJobsShareStem(files: seq<FilePath>, outputDir: string, prefix: string,
                                                  suffix: string, style: Style, i: nat, j: nat)
    requires Given(style.outputFormat) ==> DotFree(style.outputFormat.value)
    requires i < |files| && j < |files|
    requires var jobs := PlannedJobs(files, outputDir, prefix, suffix, style);
      jobs[i].output == jobs[j].output
    ensures Paths.Stem(files[i].name) == Paths.Stem(files[j].name)
  {
    PlannedJobAt(files, outputDir, prefix, suffix, style, i);
    PlannedJobAt(files, outputDir, prefix, suffix, style, j);
    SameOutputNameSameStem(files[i].name, files[j].name, prefix, suffix, style.outputFormat);
  }

  /** The resolved parent directories of the files. */
  function ParentDirs(files: seq<FilePath>, world: World): set<string>
  {
    set f | f in files :: world.resolve(f.dir)
  }

  /** The check of `process_files`: all files come from one directory, and
      the output directory resolves to it. */
  predicate ExportsIntoSource(files: seq<FilePath>, outputDir: string, world: World)
  {
    |ParentDirs(files, world)| == 1 && world.resolve(outputDir) in ParentDirs(files, world)
  }

  /** The check rejects a non-empty batch exactly when every file's
      directory resolves to the output directory. */
  lemma {:induction false} ExportsIntoSourceIff(files: seq<FilePath>, outputDir: string, world: World)
    requires files != []
    ensures ExportsIntoSource(files, outputDir, world) <==>
      forall i :: 0 <= i < |files| ==> world.resolve(files[i].dir) == world.resolve(outputDir)
  {
    var out := world.resolve(outputDir);
    var dirs := ParentDirs(files, world);
    assert world.resolve(files[0].dir) in dirs;
    if forall i :: 0 <= i < |files| ==> world.resolve(files[i].dir) == out {
      assert dirs == {out} by {
        forall d | d in dirs ensures d == out {
          var f :| f in files && world.resolve(f.dir) == d;
          var i :| 0 <= i < |files| && files[i] == f;
        }
      }
    }
    if ExportsIntoSource(files, outputDir, world) {
      forall i | 0 <= i < |files| ensures world.resolve(files[i].dir) == out {
        var d := world.resolve(files[i].dir);
        assert d in dirs;
        if d != out {
          assert {d, out} <= dirs;
          assert |{d, out}| == 2;
          SubsetCard({d, out}, dirs);
        }
      }
    }
  }

  lemma SubsetCard<T>(a: set<T>, b: set<T>)
    requires a <= b
    ensures |a| <= |b|
  {
    if a != {} {
      var x :| x in a;
      SubsetCard(a - {x}, b - {x});
    }
  }

  /** A batch drawn from two or more directories is never rejected. */
  lemma {:induction false} TwoDirectoriesNeverRejected(files: seq<FilePath>, outputDir: string, world: World,
                                                        i: nat, j: nat)
    requires i < |files| && j < |files|
    requires world.resolve(files[i].dir) != world.resolve(files[j].dir)
    ensures !ExportsIntoSource(files, outputDir, world)
  {
    ExportsIntoSourceIff(files, outputDir, world);
  }

  /** `process_files`: an empty list is refused first; then, if the safety
      flag is set, a batch that would export into its own source directory
      is refused before the output directory is created; then the output
      directory is created and every file is processed. `created` is the
      directory `mkdir` made (or found), `jobs` the `add_watermark` calls. */
  method ProcessFiles(files: seq<FilePath>, outputDir: string, style: Style, prefix: string, suffix: string,
                      forbidExportToInput: bool, world: World)
    returns (result: BatchResult, created: Option<string>, jobs: seq<Job>, outcomes: seq<Outcome>)
    ensures files == [] ==> result == NoFiles
    ensures files != [] && forbidExportToInput && ExportsIntoSource(files, outputDir, world) ==>
      result == UnsafeOutputDir
    ensures files != [] && !(forbidExportToInput && ExportsIntoSource(files, outputDir, world)) ==>
      result == (if world.canCreate(outputDir) then Finished(|files|, WrittenCount(outcomes), |files|) else MkdirFailed)
    ensures created.Some? <==> result.Finished?
    ensures created.Some? ==> created.value == outputDir
    ensures result.Finished? ==>
      jobs == PlannedJobs(files, outputDir, prefix, suffix, style) && outcomes == Outcomes(jobs, style, world)
    ensures !result.Finished? ==> jobs == [] && outcomes == []
  {
    created, jobs, outcomes := None, [], [];
    if files == [] {
      return NoFiles, created, jobs, outcomes;
    }
    if forbidExportToInput && ExportsIntoSource(files, outputDir, world) {
      return UnsafeOutputDir, created, jobs, outcomes;
    }
    if !world.canCreate(outputDir) {
      return MkdirFailed, created, jobs, outcomes;
    }
    created := Some(outputDir);
    var successCount, written;
    successCount, written, jobs, outcomes := WatermarkEach(files, outputDir, prefix, suffix, style, world);
    result := Finished(successCount, written, |files|);
  }

  /** `input_path / f"{input_path.name}_watermark"`, the default output
      directory inside the input directory, spelt as `pathlib` spells it. */
  function DefaultOutputDir(inputDir: string): (d: string)
    ensures var c := Paths.Name(inputDir) + "_watermark"; Paths.Proper(c) && d == Paths.Child(inputDir, c)
  {
    var c := Paths.Name(inputDir) + "_watermark";
    Paths.AppendedProper(Paths.Name(inputDir), "_watermark");
    Paths.Child(inputDir, c)
  }

  /** The current directory, written `.` or left empty, has no name: its
      default output directory is `_watermark`, beside the images. */
  lemma DefaultOutputDirOfCurrent()
    ensures DefaultOutputDir(".") == "_watermark" && DefaultOutputDir("") == "_watermark"
  {
    assert Paths.RFind(".", '/') == -1;
    assert "."[0..] == ".";
    assert Paths.Parts(".") == [];
  }

  /** A directory named by one component `d` exports into `d/d_watermark`,
      however many separators or `.` components trail it. */
  lemma {:induction false} DefaultOutputDirOfName(d: string)
    requires Paths.Proper(d)
    ensures DefaultOutputDir(d) == d + "/" + d + "_watermark"
    ensures DefaultOutputDir(d + "/") == DefaultOutputDir(d) && DefaultOutputDir(d + "/.") == DefaultOutputDir(d)
  {
    Paths.NameOfSingle(d);
    var c := d + "_watermark";
    ChildNamed(d, c);
    Paths.ChildOfSingle(d, c);
    Regrouped(d, c);
    SameDefaultOutputDir(d, d + "/");
    SameDefaultOutputDir(d, d + "/.");
  }

  lemma Regrouped(d: string, c: string)
    requires c == d + "_watermark"
    ensures d + "/" + c == d + "/" + d + "_watermark"
  {
    var l, r := d + "/" + c, d + "/" + d + "_watermark";
    assert |l| == |r|;
    forall i | 0 <= i < |l|
      ensures l[i] == r[i]
    {
      if i > |d| {
        assert l[i] == c[i - |d| - 1];
      }
    }
  }

  lemma ChildNamed(d: string, c: string)
    requires Paths.Proper(d) && Paths.Name(d) == d && c == d + "_watermark"
    ensures Paths.Proper(c) && DefaultOutputDir(d) == Paths.Child(d, c)
  {
  }

  /** Two spellings of a path with the same root and components have the
      same default output directory. */
  lemma SameDefaultOutputDir(p: string, q: string)
    requires p != [] && p[0] != '/' && (q == p + "/" || q == p + "/.")
    ensures DefaultOutputDir(q) == DefaultOutputDir(p)
  {
    Paths.TrailingIgnored(p, q[|p|..]);
    assert p + q[|p|..] == q;
  }

  /** The extensions `process_directory` globs for. */
  const SupportedFormats: set<string> := {".jpg", ".jpeg", ".png", ".tiff", ".tif", ".bmp"}

  /** An order in which iterating over the set of supported formats may
      visit them: each exactly once. Python does not fix that order. */
  predicate EnumeratesFormats(order: seq<string>)
  {
    && (forall i, j :: 0 <= i < j < |order| ==> order[i] != order[j])
    && (forall e :: e in order ==> e in SupportedFormats)
    && (forall e :: e in SupportedFormats ==> e in order)
  }

  /** What globbing for one extension adds: the names matching it as
      written, then those matching it upper-cased. */
  function GlobExt(dir: string, ext: string, world: World): seq<string>
  {
    world.glob(dir, "*" + ext) + world.glob(dir, "*" + Text.Upper(ext))
  }

  /** The image list `process_directory` builds, extension by extension. */
  function Globbed(dir: string, order: seq<string>, world: World): seq<string>
  {
    if order == [] then []
    else Globbed(dir, order[..|order| - 1], world) + GlobExt(dir, order[|order| - 1], world)
  }

  /** A name is listed exactly when one of the patterns matched it. */
  lemma {:induction false} GlobbedMembers(dir: string, order: seq<string>, world: World, name: string)
    ensures name in Globbed(dir, order, world) <==> exists k :: 0 <= k < |order| && name in GlobExt(dir, order[k], world)
  {
    if order != [] {
      var init := order[..|order| - 1];
      GlobbedMembers(dir, init, world, name);
      if name in Globbed(dir, init, world) {
        var k :| 0 <= k < |init| && name in GlobExt(dir, init[k], world);
        assert order[k] == init[k];
      }
      if exists k :: 0 <= k < |order| && name in GlobExt(dir, order[k], world) {
        var k :| 0 <= k < |order| && name in GlobExt(dir, order[k], world);
        if k < |init| {
          assert init[k] == order[k];
        }
      }
    }
  }

  /** Where a pattern and its upper-cased form match the same files (a
      file system that ignores case), every such image is listed, and so
      processed, at least twice. */
  lemma {:induction false} CaseBlindGlobListsTwice(dir: string, order: seq<string>, world: World, k: nat,
                                                   name: string)
    requires k < |order|
    requires world.glob(dir, "*" + order[k]) == world.glob(dir, "*" + Text.Upper(order[k]))
    requires name in world.glob(dir, "*" + order[k])
    ensures multiset(Globbed(dir, order, world))[name] >= 2
  {
    var init := order[..|order| - 1];
    if k == |order| - 1 {
      var g := world.glob(dir, "*" + order[k]);
      assert multiset(GlobExt(dir, order[k], world)) == multiset(g) + multiset(g);
    } else {
      assert init[k] == order[k];
      CaseBlindGlobListsTwice(dir, init, world, k, name);
    }
  }

  /** The gathering loop of `process_directory`: for each extension, extend
      the list with the matches of the pattern and of its upper-cased
      form. */
  method GatherImages(dir: string, order: seq<string>, world: World) returns (names: seq<string>)
    ensures names == Globbed(dir, order, world)
  {
    names := [];
    var k := 0;
    while k < |order|
      invariant 0 <= k <= |order|
      invariant names == Globbed(dir, order[..k], world)
    {
      var ext := order[k];
      names := names + world.glob(dir, "*" + ext);
      names := names + world.glob(dir, "*" + Text.Upper(ext));
      assert order[..k + 1][..k] == order[..k];
      k := k + 1;
    }
    assert order[..k] == order;
  }

  /** `process_directory`. `order` is the order in which the set of
      supported formats happens to be iterated. Unlike `process_files`, it
      creates the output directory before it looks for images, and compares
      the output directory with the input directory itself. */
  method ProcessDirectory(inputDir: string, inputExists: bool, outputDir: Option<string>,
                          style: Style, prefix: string, suffix: string, forbidExportToInput: bool,
                          order: seq<string>, world: World)
    returns (result: BatchResult, created: Option<string>, jobs: seq<Job>, outcomes: seq<Outcome>)
    requires EnumeratesFormats(order)
    ensures !inputExists ==> result == InputMissing && created == None
    ensures var out := if Given(outputDir) then outputDir.value else DefaultOutputDir(inputDir);
      && ((inputExists && Given(outputDir) && forbidExportToInput &&
           world.resolve(outputDir.value) == world.resolve(inputDir)) ==> result == UnsafeOutputDir)
      && (created.Some? <==> result == NoImages || result.Finished?)
      && (created.Some? ==> created.value == out)
      && (result.Finished? ==>
            var images := Globbed(inputDir, order, world);
            var files := seq(|images|, i requires 0 <= i < |images| => FilePath(inputDir, images[i]));
            images != [] &&
            jobs == PlannedJobs(files, out, prefix, suffix, style) && outcomes == Outcomes(jobs, style, world) &&
            result == Finished(|images|, WrittenCount(outcomes), |images|))
    ensures inputExists && !(Given(outputDir) && forbidExportToInput &&
                             world.resolve(outputDir.value) == world.resolve(inputDir)) ==>
      var out := if Given(outputDir) then outputDir.value else DefaultOutputDir(inputDir);
      if !world.canCreate(out) then result == MkdirFailed
      else if Globbed(inputDir, order, world) == [] then result == NoImages
      else result.Finished?
    ensures !result.Finished? ==> jobs == [] && outcomes == []
  {
    created, jobs, outcomes := None, [], [];
    if !inputExists {
      return InputMissing, created, jobs, outcomes;
    }
    var out: string;
    if Given(outputDir) {
      out := outputDir.value;
      if forbidExportToInput && world.resolve(out) == world.resolve(inputDir) {
        return UnsafeOutputDir, created, jobs, outcomes;
      }
    } else {
      out := DefaultOutputDir(inputDir);
    }
    if !world.canCreate(out) {
      return MkdirFailed, created, jobs, outcomes;
    }
    created := Some(out);
    var images := GatherImages(inputDir, order, world);
    if images == [] {
      return NoImages, created, jobs, outcomes;
    }
    var files := seq(|images|, i requires 0 <= i < |images| => FilePath(inputDir, images[i]));
    var successCount, written;
    successCount, written, jobs, outcomes := WatermarkEach(files, out, prefix, suffix, style, world);
    result := Finished(successCount, written, |files|);
  }

  /** The discrepancy in the count: a one-file batch whose file cannot be
      opened reports one success although nothing was written. */
  lemma UnreadableFileStillCounted(f: FilePath, outputDir: string, prefix: string, suffix: string,
                                   style: Style, world: World)
    requires world.source(f).picture.None?
    ensures var jobs := PlannedJobs([f], outputDir, prefix, suffix, style);
      WrittenCount(Outcomes(jobs, style, world)) == 0 < |[f]|
  {
    var jobs := PlannedJobs([f], outputDir, prefix, suffix, style);
    PlannedJobAt([f], outputDir, prefix, suffix, style, 0);
    var outs := Outcomes(jobs, style, world);
    OutcomeAt(jobs, style, world, 0);
    assert outs[0].Failed?;
    assert outs[..0] == [];
  }
}

=== FILE: engine.dfy ===
/**
  * One image through `PhotoWatermark.add_watermark`: open, remember whether
  * it has transparency, resize, convert to a mode that can be drawn on,
  * draw the date label at the resolved position, and save with the chosen
  * encoder. Pixels are not modelled: the image is its size and its Pillow
  * mode, and the result is a description of the file written.
  */
module Engine {
  import opened Wrappers
  import opened Resize
  import opened Position
  import opened ExifDate
  import opened Naming

  /** A file path split as `pathlib` splits it: parent directory and name. */
  datatype FilePath = FilePath(dir: string, name: string)

  /** An opened image: its size, its Pillow mode ("RGB", "RGBA", "LA",
      "L", "P", ...), and whether `img.info` holds a `transparency` entry. */
  datatype Picture = Picture(size: Size, mode: string, transparency: bool)

  /** What the engine reads from one source file: the decoded image, or
      `None` when `Image.open` raises; the Exif tables; and the file's
      modification time. */
  datatype SourceFile = SourceFile(picture: Option<Picture>, exif: ExifData, modified: Moment)

  /** The keyword arguments of `add_watermark` that shape the output. */
  datatype Style = Style(fontSize: int, color: string, position: string, outputFormat: Option<string>,
                         jpegQuality: int, resizeMode: Option<string>, resizeValue: Option<int>)

  /** The width and height of the text's bounding box (`draw.textbbox`). */
  datatype Extent = Extent(width: int, height: int)

  /** The file `img.save` writes: where, its size and mode, the encoder and
      quality used, and the label drawn on it with its position, font size
      and colour. */
  datatype Saved = Saved(path: FilePath, size: Size, mode: string, encoder: Encoder, quality: Option<int>,
                         text: string, at: Point, fontSize: int, color: string)

  /** `add_watermark` catches every exception itself: a file either is
      written or fails in one of two places, and the caller never sees an
      exception. */
  datatype Failure = OpenFailed | SaveFailed
  datatype Outcome = Written(file: Saved) | Failed(reason: Failure)

  /** `has_alpha`, computed on the image as opened, before any resize. */
  predicate HasAlpha(p: Picture)
  {
    p.mode == "RGBA" || p.mode == "LA" || p.transparency
  }

  /** The mode of the saved file: images with transparency are drawn as
      RGBA and keep it unless saved as JPEG; everything else is RGB. */
  function OutputMode(p: Picture, encoder: Encoder): string
  {
    if HasAlpha(p) && encoder != JpegEncoder then "RGBA" else "RGB"
  }

  /** The declarative account of `add_watermark`: what it writes, as a
      function of the source, the output path, the style, the font's
      measurements (`measure(text, font_size)`, standing for `get_font` and
      `textbbox`) and whether the save succeeds. */
  function Render(src: SourceFile, out: FilePath, style: Style, measure: (string, int) -> Extent,
                  writable: bool): (r: Outcome)
    ensures r.Written? <==> src.picture.Some? && writable
    ensures r.Written? ==>
      var p, f := src.picture.value, r.file;
      && f.path == out
      && f.size == ApplyResize(p.size, style.resizeMode, style.resizeValue)
      && (Positive(p.size) ==> Positive(f.size))
      && f.text == WatermarkText(src.exif, src.modified)
      && f.encoder == EncoderFor(SaveFormat(style.outputFormat, out.name))
      && (f.quality.Some? <==> f.encoder == JpegEncoder)
      && (f.quality.Some? ==> f.quality.value == style.jpegQuality)
      && (f.mode == "RGB" || f.mode == "RGBA")
      && (f.mode == "RGBA" <==> HasAlpha(p) && f.encoder != JpegEncoder)
      && f.fontSize == style.fontSize && f.color == style.color
  {
    match src.picture
    case None => Failed(OpenFailed)
    case Some(p) =>
      if !writable then Failed(SaveFailed)
      else
        var size := ApplyResize(p.size, style.resizeMode, style.resizeValue);
        var text := WatermarkText(src.exif, src.modified);
        var box := measure(text, style.fontSize);
        var encoder := EncoderFor(SaveFormat(style.outputFormat, out.name));
        Written(Saved(out, size, OutputMode(p, encoder), encoder,
                      if encoder == JpegEncoder then Some(style.jpegQuality) else None,
                      text, CalculatePosition(size.width, size.height, box.width, box.height, style.position),
                      style.fontSize, style.color))
  }

  /** The label is drawn where `calculate_position` puts a box of the
      measured size in the image as resized. */
  lemma RenderedAt(src: SourceFile, out: FilePath, style: Style, measure: (string, int) -> Extent,
                   writable: bool)
    requires Render(src, out, style, measure, writable).Written?
    ensures var f := Render(src, out, style, measure, writable).file;
      var box := measure(f.text, style.fontSize);
      f.at == CalculatePosition(f.size.width, f.size.height, box.width, box.height, style.position)
  {
  }

  /** A label whose box fits the written image with room for the margin on
      both sides is drawn inside it, the margin away from every edge,
      whatever the anchor. */
  lemma {:induction false} LabelInsideWrittenImage(src: SourceFile, out: FilePath, style: Style,
                                                    measure: (string, int) -> Extent, writable: bool)
    requires Render(src, out, style, measure, writable).Written?
    requires var f := Render(src, out, style, measure, writable).file;
      var box := measure(f.text, style.fontSize);
      box.width >= 0 && box.height >= 0 &&
      box.width + 2 * Margin <= f.size.width && box.height + 2 * Margin <= f.size.height
    ensures var f := Render(src, out, style, measure, writable).file;
      var box := measure(f.text, style.fontSize);
      Margin <= f.at.x && f.at.x + box.width + Margin <= f.size.width &&
      Margin <= f.at.y && f.at.y + box.height + Margin <= f.size.height
  {
    var f := Render(src, out, style, measure, writable).file;
    var box := measure(f.text, style.fontSize);
    RenderedAt(src, out, style, measure, writable);
    InsideWithMargin(f.size.width, f.size.height, box.width, box.height, style.position);
  }

  /** `add_watermark`, step by step as the source reassigns `img`. */
  method AddWatermark(src: SourceFile, out: FilePath, style: Style, measure: (string, int) -> Extent,
                      writable: bool) returns (r: Outcome)
    ensures r == Render(src, out, style, measure, writable)
  {
    if src.picture.None? {
      return Failed(OpenFailed);
    }
    var img := src.picture.value;
    var hasAlpha := HasAlpha(img);
    if ResizeRequested(style.resizeMode, style.resizeValue) {
      // Pillow's resize keeps the mode.
      img := img.(size := ResizeImage(img.size, style.resizeMode.value, style.resizeValue.value));
    }
    if hasAlpha {
      if img.mode != "RGBA" {
        img := img.(mode := "RGBA");
      }
    } else if img.mode != "RGB" && img.mode != "RGBA" {
      img := img.(mode := "RGB");
    }
    var text := WatermarkText(src.exif, src.modified);
    var box := measure(text, style.fontSize);
    var at := CalculatePosition(img.size.width, img.size.height, box.width, box.height, style.position);
    var encoder := EncoderFor(SaveFormat(style.outputFormat, out.name));
    var quality: Option<int> := None;
    if encoder == JpegEncoder {
      if img.mode == "RGBA" {
        img := img.(mode := "RGB");
      }
      quality := Some(style.jpegQuality);
    }
    if !writable {
      return Failed(SaveFailed);
    }
    r := Written(Saved(out, img.size, img.mode, encoder, quality, text, at, style.fontSize, style.color));
  }
}

=== FILE: exif_date.dfy ===
/**
  * The date label drawn on every photo (`get_exif_datetime` and
  * `get_watermark_text`): the capture time read from the Exif metadata,
  * parsed with `datetime.strptime(s, '%Y:%m:%d %H:%M:%S')`, or the file's
  * modification time when there is none, rendered as `YYYY年MM月DD日`.
  *
  * The Exif standard (Exif 2.3, sections 4.6.4 and 4.6.5) writes these tags
  * as "YYYY:MM:DD HH:MM:SS"; `strptime` accepts more than that, and the
  * parser below follows `strptime`'s pattern for this format exactly, for
  * ASCII digits.
  */
module ExifDate {
  import opened Wrappers
  import opened Text

  datatype Date = Date(year: int, month: int, day: int)
  datatype DateTime = DateTime(date: Date, hour: int, minute: int, second: int)

  predicate IsLeapYear(y: int)
  {
    y % 4 == 0 && (y % 100 != 0 || y % 400 == 0)
  }

  function DaysInMonth(y: int, m: int): (n: int)
    requires 1 <= m <= 12
    ensures 28 <= n <= 31
  {
    if m == 2 then (if IsLeapYear(y) then 29 else 28)
    else if m == 4 || m == 6 || m == 9 || m == 11 then 30
    else 31
  }

  /** The dates Python's `date` constructor accepts (years 1 to 9999). */
  predicate ValidDate(d: Date)
  {
    1 <= d.year <= 9999 && 1 <= d.month <= 12 && 1 <= d.day <= DaysInMonth(d.year, d.month)
  }

  predicate ValidDateTime(t: DateTime)
  {
    ValidDate(t.date) && 0 <= t.hour <= 23 && 0 <= t.minute <= 59 && 0 <= t.second <= 59
  }

  /** A `datetime` object: always a valid calendar date and time of day. */
  type Moment = t: DateTime | ValidDateTime(t) witness DateTime(Date(1, 1, 1), 0, 0, 0)

  // ---------------------------------------------------------------------
  // Parsing: `strptime` turns '%Y:%m:%d %H:%M:%S' into the pattern
  //   (\d\d\d\d):(1[0-2]|0[1-9]|[1-9]):(3[01]|[12]\d|0[1-9]|[1-9]| [1-9])\s+
  //   (2[0-3]|[0-1]\d|\d):([0-5]\d|\d):(6[0-1]|[0-5]\d|\d)
  // matched from the start, fails with "unconverted data remains" unless the
  // match reaches the end, and then builds a `datetime`, which rejects
  // impossible days and seconds 60 and 61.
  // Every numeric group is followed by a non-digit (or the end), so a group
  // matches exactly when the maximal run of digits there has one or two
  // digits and its value lies in the group's range.
  // ---------------------------------------------------------------------

  /** The length of the run of ASCII digits starting at `i`. */
  function DigitRun(s: string, i: nat): (n: nat)
    requires i <= |s|
    ensures i + n <= |s|
    ensures forall k :: i <= k < i + n ==> IsDigit(s[k])
    ensures i + n == |s| || !IsDigit(s[i + n])
    decreases |s| - i
  {
    if i < |s| && IsDigit(s[i]) then 1 + DigitRun(s, i + 1) else 0
  }

  /** A one- or two-digit field at `i` whose value lies in `lo..hi`: its
      value and the index just after it. */
  function Field(s: string, i: nat, lo: nat, hi: nat): (r: Option<(nat, nat)>)
    requires i <= |s|
    ensures r.Some? ==> lo <= r.value.0 <= hi && i < r.value.1 <= i + 2 && r.value.1 <= |s|
  {
    var n := DigitRun(s, i);
    if 1 <= n <= 2 && lo <= DigitsValue(s[i..i + n]) <= hi then Some((DigitsValue(s[i..i + n]), i + n))
    else None
  }

  /** The day group: a field `1..31`, or a space and one digit `1..9`. */
  function DayField(s: string, i: nat): (r: Option<(nat, nat)>)
    requires i <= |s|
    ensures r.Some? ==> 1 <= r.value.0 <= 31 && i < r.value.1 <= i + 2 && r.value.1 <= |s|
  {
    if i + 1 < |s| && s[i] == ' ' && '1' <= s[i + 1] <= '9' then Some((DigitValue(s[i + 1]), i + 2))
    else Field(s, i, 1, 31)
  }

  /** `\s+`: the index after a non-empty run of whitespace starting at `i`. */
  function SpaceRun(s: string, i: nat): (r: Option<nat>)
    requires i <= |s|
    ensures r.Some? ==> i < r.value <= |s| && forall k :: i <= k < r.value ==> IsSpace(s[k])
    ensures r.Some? ==> r.value == |s| || !IsSpace(s[r.value])
    decreases |s| - i
  {
    if i < |s| && IsSpace(s[i]) then
      match SpaceRun(s, i + 1)
      case Some(j) => Some(j)
      case None => Some(i + 1)
    else None
  }

  predicate LiteralAt(s: string, i: nat, c: char)
  {
    i < |s| && s[i] == c
  }

  /** `datetime.strptime(s, '%Y:%m:%d %H:%M:%S')`, with `None` for the
      `ValueError` it raises on anything it does not accept. */
  function ParseExifDateTime(s: string): (r: Option<Moment>)
    ensures r.Some? ==> |s| >= 14
  {
    if |s| < 5 || !(forall k :: 0 <= k < 4 ==> IsDigit(s[k])) || s[4] != ':' then None
    else
      var year := DigitsValue(s[..4]);
      match Field(s, 5, 1, 12)
      case None => None
      case Some((month, i)) =>
        if !LiteralAt(s, i, ':') then None
        else match DayField(s, i + 1)
        case None => None
        case Some((day, j)) =>
          match SpaceRun(s, j)
          case None => None
          case Some(k) =>
            match Field(s, k, 0, 23)
            case None => None
            case Some((hour, l)) =>
              if !LiteralAt(s, l, ':') then None
              else match Field(s, l + 1, 0, 59)
              case None => None
              case Some((minute, m)) =>
                if !LiteralAt(s, m, ':') then None
                else match Field(s, m + 1, 0, 61)
                case None => None
                case Some((second, n)) =>
                  var t := DateTime(Date(year, month, day), hour, minute, second);
                  if n == |s| && ValidDateTime(t) then Some(t) else None
  }

  // ---------------------------------------------------------------------
  // Formatting
  // ---------------------------------------------------------------------

  /** "YYYY:MM:DD", the date half of the Exif form. */
  function ExifDateString(d: Date): (s: string)
    requires ValidDate(d)
    ensures |s| == 10 && s[4] == ':' && s[7] == ':'
    ensures s[..4] == Padded(d.year, 4) && s[5..7] == Padded(d.month, 2) && s[8..10] == Padded(d.day, 2)
  {
    Padded(d.year, 4) + ":" + Padded(d.month, 2) + ":" + Padded(d.day, 2)
  }

  /** "HH:MM:SS", the time half of the Exif form. */
  function ExifTimeString(t: Moment): (s: string)
    ensures |s| == 8 && s[2] == ':' && s[5] == ':'
    ensures s[..2] == Padded(t.hour, 2) && s[3..5] == Padded(t.minute, 2) && s[6..8] == Padded(t.second, 2)
  {
    Padded(t.hour, 2) + ":" + Padded(t.minute, 2) + ":" + Padded(t.second, 2)
  }

  /** The form the Exif standard prescribes, "YYYY:MM:DD HH:MM:SS". */
  function ExifString(t: Moment): (s: string)
    ensures |s| == 19
  {
    ExifDateString(t.date) + " " + ExifTimeString(t)
  }

  /** `strftime('%Y年%m月%d日')`: the date only, the time of day dropped.
      The contract reads the date back out of the label. */
  function DateLabel(d: Date): (s: string)
    requires ValidDate(d)
    ensures |s| == 11 && s[4] == '年' && s[7] == '月' && s[10] == '日'
    ensures forall k :: 0 <= k < 11 && k != 4 && k != 7 && k != 10 ==> IsDigit(s[k])
    ensures DigitsValue(s[..4]) == d.year
    ensures DigitsValue(s[5..7]) == d.month
    ensures DigitsValue(s[8..10]) == d.day
  {
    var y, m, dd := Padded(d.year, 4), Padded(d.month, 2), Padded(d.day, 2);
    var s := y + "年" + m + "月" + dd + "日";
    assert s[..4] == y && s[5..7] == m && s[8..10] == dd;
    s
  }

  // ---------------------------------------------------------------------
  // Round trip
  // ---------------------------------------------------------------------

  /** A two-digit field written by `Padded` reads back as its value. */
  lemma {:induction false} FieldReadsPadded(s: string, i: nat, v: nat, lo: nat, hi: nat)
    requires lo <= v <= hi && v < 100
    requires i + 2 <= |s| && s[i..i + 2] == Padded(v, 2)
    requires i + 2 == |s| || !IsDigit(s[i + 2])
    ensures Field(s, i, lo, hi) == Some((v, i + 2))
  {
    assert IsDigit(s[i]) && IsDigit(s[i + 1]) by {
      assert s[i] == s[i..i + 2][0] && s[i + 1] == s[i..i + 2][1];
    }
    assert DigitRun(s, i + 2) == 0;
    assert DigitRun(s, i + 1) == 1;
    assert DigitRun(s, i) == 2;
  }

  /** A slice inside the left part of a concatenation. */
  lemma LeftSlice(a: string, b: string, i: nat, j: nat)
    requires i <= j <= |a|
    ensures (a + b)[i..j] == a[i..j]
  {
  }

  /** A slice inside the right part of a concatenation. */
  lemma RightSlice(a: string, b: string, i: nat, j: nat)
    requires |a| <= i <= j <= |a| + |b|
    ensures (a + b)[i..j] == b[i - |a|..j - |a|]
  {
  }

  /** Where the separators and the fields of the Exif form sit. */
  lemma {:induction false} ExifStringLayout(t: Moment)
    ensures var s := ExifString(t);
      (forall k :: 0 <= k < 4 ==> IsDigit(s[k])) && s[..4] == Padded(t.date.year, 4) &&
      s[4] == ':' && s[7] == ':' && s[10] == ' ' && s[13] == ':' && s[16] == ':' &&
      s[5..7] == Padded(t.date.month, 2) && s[8..10] == Padded(t.date.day, 2) &&
      s[11..13] == Padded(t.hour, 2) && s[14..16] == Padded(t.minute, 2) && s[17..19] == Padded(t.second, 2)
  {
    var p, q := ExifDateString(t.date), ExifTimeString(t);
    var ps := p + " ";
    var s := ps + q;
    assert s == ExifString(t);
    LeftSlice(p, " ", 0, 4);
    LeftSlice(ps, q, 0, 4);
    LeftSlice(p, " ", 5, 7);
    LeftSlice(ps, q, 5, 7);
    LeftSlice(p, " ", 8, 10);
    LeftSlice(ps, q, 8, 10);
    RightSlice(ps, q, 11, 13);
    RightSlice(ps, q, 14, 16);
    RightSlice(ps, q, 17, 19);
    assert s[4] == p[4] && s[7] == p[7] && s[10] == ' ' && s[13] == q[2] && s[16] == q[5];
    assert forall k :: 0 <= k < 4 ==> s[k] == s[..4][k];
  }

  /** What each step of the parser finds in the Exif form. */
  lemma {:induction false} ExifStringSteps(t: Moment)
    ensures var s := ExifString(t);
      Field(s, 5, 1, 12) == Some((t.date.month, 7)) && LiteralAt(s, 7, ':') &&
      DayField(s, 8) == Some((t.date.day, 10)) && SpaceRun(s, 10) == Some(11) &&
      Field(s, 11, 0, 23) == Some((t.hour, 13)) && LiteralAt(s, 13, ':') &&
      Field(s, 14, 0, 59) == Some((t.minute, 16)) && LiteralAt(s, 16, ':') &&
      Field(s, 17, 0, 61) == Some((t.second, 19))
  {
    var s := ExifString(t);
    ExifStringLayout(t);
    FieldReadsPadded(s, 5, t.date.month, 1, 12);
    DayReadsPadded(s, t.date.day);
    SingleSpace(s, 10);
    FieldReadsPadded(s, 11, t.hour, 0, 23);
    FieldReadsPadded(s, 14, t.minute, 0, 59);
    FieldReadsPadded(s, 17, t.second, 0, 61);
  }

  /** The day field of the Exif form, zero-padded, reads as the day. */
  lemma {:induction false} DayReadsPadded(s: string, day: nat)
    requires 1 <= day <= 31 && |s| > 10 && s[8..10] == Padded(day, 2) && s[10] == ' '
    ensures DayField(s, 8) == Some((day, 10))
  {
    assert s[8] == s[8..10][0];
    FieldReadsPadded(s, 8, day, 1, 31);
  }

  /** One space followed by a digit is a whitespace run of length one. */
  lemma {:induction false} SingleSpace(s: string, i: nat)
    requires i + 1 < |s| && s[i] == ' ' && IsDigit(s[i + 1])
    ensures SpaceRun(s, i) == Some(i + 1)
  {
    assert SpaceRun(s, i + 1) == None;
  }

  /** Parsing the text the Exif standard prescribes gives back the moment
      it was written from. */
  lemma {:induction false} ParseExifString(t: Moment)
    ensures ParseExifDateTime(ExifString(t)) == Some(t)
  {
    ExifStringLayout(t);
    ExifStringSteps(t);
  }

  // ---------------------------------------------------------------------
  // Choosing the date (`get_exif_datetime`, `get_watermark_text`)
  // ---------------------------------------------------------------------

  /** Tag numbers fixed by the Exif standard: DateTime is tag 306 of the 0th
      IFD (section 4.6.4), DateTimeOriginal tag 36867 of the Exif IFD
      (section 4.6.5). */
  const DateTimeTag: int := 306
  const DateTimeOriginalTag: int := 36867

  /** The result of `piexif.load(path)`: it raised (a file that is neither
      JPEG nor TIFF, a damaged header), or it gave the tables of the 0th and
      the Exif IFD, whose ASCII values are taken as already decoded text.
      `piexif.load` always includes an "Exif" table, so the source's
      `'Exif' in exif_dict` test always holds. */
  datatype ExifData = LoadFailed | Loaded(zeroth: map<int, string>, exif: map<int, string>)

  /** `get_exif_datetime` as the source runs it. When the Exif IFD has no
      DateTimeOriginal, the `elif` evaluates `piexif.ExifIFD.DateTime`, a
      name piexif's Exif IFD table does not define (DateTime belongs to the
      0th IFD); the `AttributeError` lands in the `except` branch and the
      result is `None`, so DateTime is never consulted. */
  function ExifDateTimeAsWritten(e: ExifData): (r: Option<Moment>)
    ensures r.Some? ==> e.Loaded? && DateTimeOriginalTag in e.exif
  {
    match e
    case LoadFailed => None
    case Loaded(_, exif) =>
      if DateTimeOriginalTag in exif then ParseExifDateTime(exif[DateTimeOriginalTag]) else None
  }

  /** `get_exif_datetime` as evidently intended, and as the rest of the
      model uses it: DateTimeOriginal if the Exif IFD has it, otherwise
      DateTime from the 0th IFD. As in the source, a DateTimeOriginal that
      does not parse ends the lookup (the exception skips the `elif`). */
  function ExifDateTime(e: ExifData): (r: Option<Moment>)
    ensures r.Some? ==> e.Loaded? && (DateTimeOriginalTag in e.exif || DateTimeTag in e.zeroth)
    ensures e.Loaded? && DateTimeOriginalTag in e.exif ==> r == ParseExifDateTime(e.exif[DateTimeOriginalTag])
  {
    match e
    case LoadFailed => None
    case Loaded(zeroth, exif) =>
      if DateTimeOriginalTag in exif then ParseExifDateTime(exif[DateTimeOriginalTag])
      else if DateTimeTag in zeroth then ParseExifDateTime(zeroth[DateTimeTag])
      else None
  }

  /** `get_watermark_text`: the label of the capture date, or of the file's
      modification time (`datetime.fromtimestamp(os.path.getmtime(path))`,
      given here as `modified`) when no capture date is found. A label is
      always produced. */
  function WatermarkText(e: ExifData, modified: Moment): (text: string)
    ensures |text| == 11
    ensures ExifDateTime(e).Some? ==> text == DateLabel(ExifDateTime(e).value.date)
    ensures ExifDateTime(e).None? ==> text == DateLabel(modified.date)
  {
    match ExifDateTime(e)
    case Some(t) => DateLabel(t.date)
    case None => DateLabel(modified.date)
  }

  /** A DateTimeOriginal that parses decides the label, in any form
      `strptime` accepts, whatever DateTime says and whenever the file was
      modified; only its date part shows. */
  lemma {:induction false} CaptureDateDecidesLabel(t: Moment, zeroth: map<int, string>, exif: map<int, string>,
                                                    modified: Moment)
    requires DateTimeOriginalTag in exif && ParseExifDateTime(exif[DateTimeOriginalTag]) == Some(t)
    ensures ExifDateTime(Loaded(zeroth, exif)) == Some(t)
    ensures WatermarkText(Loaded(zeroth, exif), modified) == DateLabel(t.date)
    ensures WatermarkTextAsWritten(Loaded(zeroth, exif), modified) == DateLabel(t.date)
  {
  }

  /** In particular, the canonical Exif form of a moment decides the
      label. */
  lemma {:induction false} CanonicalCaptureDateDecidesLabel(t: Moment, zeroth: map<int, string>,
                                                             exif: map<int, string>, modified: Moment)
    requires DateTimeOriginalTag in exif && exif[DateTimeOriginalTag] == ExifString(t)
    ensures WatermarkText(Loaded(zeroth, exif), modified) == DateLabel(t.date)
  {
    ParseExifString(t);
    CaptureDateDecidesLabel(t, zeroth, exif, modified);
  }

  /** Without DateTimeOriginal, a well-formed DateTime in the 0th IFD gives
      the date. */
  lemma {:induction false} DateTimeIsFallback(t: Moment, zeroth: map<int, string>, exif: map<int, string>)
    requires DateTimeOriginalTag !in exif
    requires DateTimeTag in zeroth && zeroth[DateTimeTag] == ExifString(t)
    ensures ExifDateTime(Loaded(zeroth, exif)) == Some(t)
  {
    ParseExifString(t);
  }

  /** A DateTimeOriginal that does not parse is not rescued by a good
      DateTime: the label comes from the modification time. */
  lemma {:induction false} MalformedCaptureDateFallsBackToMtime(t: Moment, bad: string, modified: Moment)
    requires ParseExifDateTime(bad).None?
    ensures var e := Loaded(map[DateTimeTag := ExifString(t)], map[DateTimeOriginalTag := bad]);
      WatermarkText(e, modified) == DateLabel(modified.date)
  {
  }

  /** The discrepancy: a file whose only date is DateTime in the 0th IFD
      gets no capture date from the code as written, but does from the
      intended lookup. */
  lemma {:induction false} DateTimeIgnoredAsWritten(t: Moment)
    ensures var e := Loaded(map[DateTimeTag := ExifString(t)], map[]);
      ExifDateTimeAsWritten(e) == None && ExifDateTime(e) == Some(t)
  {
    ParseExifString(t);
  }

  /** `get_watermark_text` as the source runs it, on the lookup as written. */
  function WatermarkTextAsWritten(e: ExifData, modified: Moment): (text: string)
    ensures |text| == 11
    ensures ExifDateTimeAsWritten(e).Some? ==> text == DateLabel(ExifDateTimeAsWritten(e).value.date)
    ensures ExifDateTimeAsWritten(e).None? ==> text == DateLabel(modified.date)
  {
    match ExifDateTimeAsWritten(e)
    case Some(t) => DateLabel(t.date)
    case None => DateLabel(modified.date)
  }

  /** Different dates give different labels. */
  lemma DateLabelInjective(a: Date, b: Date)
    requires ValidDate(a) && ValidDate(b) && DateLabel(a) == DateLabel(b)
    ensures a == b
  {
  }

  /** The label the source draws and the label of the intended lookup
      differ exactly for a file without DateTimeOriginal whose DateTime
      parses to a date other than the modification date. */
  lemma {:induction false} LabelsDifferOnlyOnDateTime(e: ExifData, modified: Moment)
    ensures WatermarkTextAsWritten(e, modified) != WatermarkText(e, modified) <==>
      && e.Loaded? && DateTimeOriginalTag !in e.exif && DateTimeTag in e.zeroth
      && ParseExifDateTime(e.zeroth[DateTimeTag]).Some?
      && ParseExifDateTime(e.zeroth[DateTimeTag]).value.date != modified.date
  {
    if e.Loaded? && DateTimeOriginalTag !in e.exif && DateTimeTag in e.zeroth {
      match ParseExifDateTime(e.zeroth[DateTimeTag]) {
        case Some(t) =>
          if DateLabel(t.date) == DateLabel(modified.date) {
            DateLabelInjective(t.date, modified.date);
          }
        case None =>
      }
    }
  }
}

=== FILE: float_text.dfy ===
/**
  * Python's `float(text)` for the text the GUI reads from its entry
  * fields: the whitespace `float()` skips around a number is ignored
  * (`Text.IsNumberSpace`), then an optional sign and
  * either `inf`, `infinity` or `nan` in any case, or a decimal numeral
  * (digits with single underscores between them, an optional fraction, an
  * optional exponent). Anything else raises `ValueError`, modelled as
  * `None`. Finite values are kept exact; the rounding to a binary double is
  * not modelled. `int(text)` is modelled for the text the GUI hands it:
  * digits with whitespace around them.
  */
module FloatText {
  import opened Wrappers
  import opened Text

  datatype Float = Finite(value: real) | Infinite(negative: bool) | NaN

  function Negate(f: Float): Float
  {
    match f
    case Finite(v) => Finite(-v)
    case Infinite(neg) => Infinite(!neg)
    case NaN => NaN
  }

  /** The first index of `s` holding a character of `cs`, or `|s|`. */
  function FirstOf(s: string, cs: set<char>): (i: nat)
    ensures i <= |s|
    ensures i < |s| ==> s[i] in cs
    ensures forall j :: 0 <= j < i ==> s[j] !in cs
  {
    if s == [] then 0
    else if s[0] in cs then 0
    else 1 + FirstOf(s[1..], cs)
  }

  /** A run of digits in which single underscores may separate digits. */
  predicate DigitPart(s: string)
  {
    && |s| > 0 && IsDigit(s[0]) && IsDigit(s[|s| - 1])
    && (forall i :: 0 <= i < |s| ==> IsDigit(s[i]) || s[i] == '_')
    && (forall i :: 0 <= i < |s| - 1 ==> s[i] == '_' ==> IsDigit(s[i + 1]))
  }

  /** The digits of `s` with the underscores taken out. */
  function Digits(s: string): (d: string)
    requires forall i :: 0 <= i < |s| ==> IsDigit(s[i]) || s[i] == '_'
    ensures |d| <= |s|
    ensures forall i :: 0 <= i < |d| ==> IsDigit(d[i])
    ensures (forall i :: 0 <= i < |s| ==> IsDigit(s[i])) ==> d == s
  {
    if s == [] then []
    else
      var d := Digits(s[..|s| - 1]) + (if s[|s| - 1] == '_' then [] else [s[|s| - 1]]);
      assert (forall i :: 0 <= i < |s| ==> IsDigit(s[i])) ==> s == s[..|s| - 1] + [s[|s| - 1]];
      d
  }

  function DigitPartValue(s: string): nat
    requires DigitPart(s)
  {
    DigitsValue(Digits(s))
  }

  /** `10^e` for any integer exponent. */
  function Pow10Real(e: int): (p: real)
    ensures p > 0.0
  {
    if e >= 0 then Pow10(e) as real else 1.0 / (Pow10(-e) as real)
  }

  /** An exponent after `e`/`E`: an optional sign and a digit part. */
  function Exponent(s: string): Option<int>
  {
    if |s| > 0 && (s[0] == '+' || s[0] == '-') then
      if DigitPart(s[1..]) then
        Some(if s[0] == '-' then -(DigitPartValue(s[1..]) as int) else DigitPartValue(s[1..]))
      else None
    else if DigitPart(s) then Some(DigitPartValue(s) as int)
    else None
  }

  /** The digits of a mantissa and how many of them follow the point: the
      mantissa is worth `digits / 10^scale`. */
  datatype Numeral = Numeral(digits: nat, scale: nat)

  /** A mantissa with a point: digits before it, after it, or both. */
  function Fractional(whole: string, fraction: string): Option<Numeral>
  {
    if whole == [] && fraction == [] then None
    else if whole != [] && !DigitPart(whole) then None
    else if fraction != [] && !DigitPart(fraction) then None
    else
      var w := if whole == [] then "" else Digits(whole);
      var f := if fraction == [] then "" else Digits(fraction);
      Some(Numeral(DigitsValue(w + f), |f|))
  }

  /** The part of a numeral before its exponent. */
  function Mantissa(m: string): Option<Numeral>
  {
    var d := FirstOf(m, {'.'});
    if d == |m| then
      if DigitPart(m) then Some(Numeral(DigitPartValue(m), 0)) else None
    else Fractional(m[..d], m[d + 1..])
  }

  /** What a numeral is worth under a decimal exponent:
      `digits * 10^(exponent - scale)`. */
  function Worth(n: Numeral, exponent: int): real
  {
    n.digits as real * Pow10Real(exponent - n.scale)
  }

  /** A numeral without sign: `12`, `1_000`, `1.`, `.5`, `2.5e-3`. */
  function Unsigned(s: string): Option<real>
  {
    var k := FirstOf(s, {'e', 'E'});
    var exponent := if k == |s| then Some(0) else Exponent(s[k + 1..]);
    match Mantissa(s[..k])
    case None => None
    case Some(n) =>
      if exponent.None? then None
      else Some(Worth(n, exponent.value))
  }

  predicate IsSign(c: char)
  {
    c == '+' || c == '-'
  }

  /** `float(s)`: `None` where Python raises `ValueError`. */
  function ParseFloat(s: string): (r: Option<Float>)
    ensures NumberStrip(s) == [] ==> r.None?
  {
    var t := NumberStrip(s);
    if |t| > 0 && IsSign(t[0]) then ReadBody(t[1..], t[0] == '-')
    else ReadBody(t, false)
  }

  /** The text after the sign, with the sign applied. */
  function ReadBody(body: string, negative: bool): (r: Option<Float>)
    ensures body == [] ==> r.None?
  {
    match Magnitude(body)
    case None => None
    case Some(m) => Some(if negative then Negate(m) else m)
  }

  /** What unsigned text reads as: a special word in any case, or a
      numeral. */
  function Magnitude(body: string): (r: Option<Float>)
    ensures body == [] ==> r.None?
    ensures r.Some? && r.value.Infinite? ==> !r.value.negative
  {
    var word := Lower(body);
    if body == [] then None
    else if word == "inf" || word == "infinity" then Some(Infinite(false))
    else if word == "nan" then Some(NaN)
    else
      match Unsigned(body)
      case None => None
      case Some(v) => Some(Finite(v))
  }

  lemma {:induction false} DigitsValueAppend(a: string, b: string)
    requires forall i :: 0 <= i < |a| ==> IsDigit(a[i])
    requires forall i :: 0 <= i < |b| ==> IsDigit(b[i])
    ensures DigitsValue(a + b) == DigitsValue(a) * Pow10(|b|) + DigitsValue(b)
  {
    if b != [] {
      var b' := b[..|b| - 1];
      var d := DigitValue(b[|b| - 1]);
      assert (a + b)[..|a + b| - 1] == a + b';
      assert DigitsValue(a + b) == 10 * DigitsValue(a + b') + d;
      assert DigitsValue(b) == 10 * DigitsValue(b') + d;
      DigitsValueAppend(a, b');
      assert Pow10(|b|) == 10 * Pow10(|b'|);
      Regroup(DigitsValue(a), Pow10(|b'|), DigitsValue(b'), d);
    } else {
      assert a + b == a;
    }
  }

  lemma Regroup(x: int, p: int, y: int, d: int)
    ensures 10 * (x * p + y) + d == x * (10 * p) + (10 * y + d)
  {
  }

  /** A numeral without fractional digits is worth its digits. */
  lemma WorthWhole(d: nat)
    ensures Worth(Numeral(d, 0), 0) == d as real
  {
    assert Pow10Real(0 - 0) == 1.0;
  }

  /** `v` scaled up by ten `k` times. */
  function ScaledUp(v: real, k: nat): real
  {
    v * (Pow10(k) as real)
  }

  /** Scaling the worth of a numeral with no exponent back up by ten per
      fractional digit gives its digits. */
  lemma WorthScaledBack(d: nat, k: nat)
    ensures ScaledUp(Worth(Numeral(d, k), 0), k) == d as real
  {
    var p := Pow10(k) as real;
    if k == 0 {
      WorthWhole(d);
    } else {
      assert Pow10Real(0 - k) == 1.0 / p;
      assert (d as real * (1.0 / p)) * p == d as real;
    }
  }

  /** A digit string holds neither an exponent letter nor a dot. */
  lemma DigitsHaveNoMarks(s: string)
    requires forall i :: 0 <= i < |s| ==> IsDigit(s[i])
    ensures FirstOf(s, {'e', 'E'}) == |s| && FirstOf(s, {'.'}) == |s|
  {
  }

  /** A string with no number whitespace at either end is read whole. */
  lemma NumberStripKeeps(s: string)
    requires s != [] && !IsNumberSpace(s[0]) && !IsNumberSpace(s[|s| - 1])
    ensures NumberStrip(s) == s
  {
    assert LeadingNumberSpaces(s) == 0;
  }

  /** A plain digit string is a numeral worth its digits. */
  lemma {:induction false} UnsignedDigits(s: string)
    requires AllDigits(s)
    ensures Unsigned(s) == Some(DigitsValue(s) as real)
  {
    DigitsHaveNoMarks(s);
    assert s[..|s|] == s;
    assert DigitPart(s);
    assert Mantissa(s) == Some(Numeral(DigitsValue(s), 0));
    WorthWhole(DigitsValue(s));
  }

  /** No string starting with a digit spells one of the special words. */
  lemma DigitIsNoWord(s: string)
    requires s != [] && IsDigit(s[0])
    ensures Lower(s) != "inf" && Lower(s) != "infinity" && Lower(s) != "nan"
  {
    assert Lower(s)[0] == s[0];
  }

  /** What `str(n)` writes for a natural number reads back as that number. */
  lemma {:induction false} ReadsDecimal(n: nat)
    ensures ParseFloat(Decimal(n)) == Some(Finite(n as real))
  {
    var s := Decimal(n);
    ReadsPlainNumeral(s);
    UnsignedDigits(s);
  }

  /** Text that starts and ends with a digit is read as an unsigned
      numeral, with no sign, word or whitespace in the way. */
  lemma ReadsPlainNumeral(s: string)
    requires s != [] && IsDigit(s[0]) && IsDigit(s[|s| - 1])
    ensures ParseFloat(s) == match Unsigned(s) case None => None case Some(v) => Some(Finite(v))
  {
    NumberStripKeeps(s);
    DigitIsNoWord(s);
  }

  /** A numeral `w.f` reads as the integer its digits spell together,
      scaled down by ten for every digit after the point. */
  lemma {:induction false} ReadsFraction(w: string, f: string)
    requires AllDigits(w) && AllDigits(f)
    ensures ParseFloat(w + "." + f) == Some(Finite(Worth(Numeral(DigitsValue(w + f), |f|), 0)))
    ensures DigitsValue(w + f) == DigitsValue(w) * Pow10(|f|) + DigitsValue(f)
  {
    var s := w + "." + f;
    assert s[0] == w[0] && s[|s| - 1] == f[|f| - 1];
    ReadsPlainNumeral(s);
    UnsignedFraction(w, f);
    DigitsValueAppend(w, f);
  }

  /** Scaled back up by ten per fractional digit, `float("w.f")` is `w`
      shifted left past the digits of `f`, plus `f`. */
  lemma {:induction false} FractionScaledBack(w: string, f: string)
    requires AllDigits(w) && AllDigits(f)
    ensures ParseFloat(w + "." + f).Some? && ParseFloat(w + "." + f).value.Finite?
    ensures ScaledUp(ParseFloat(w + "." + f).value.value, |f|) == DigitsValue(w + f) as real
    ensures DigitsValue(w + f) == DigitsValue(w) * Pow10(|f|) + DigitsValue(f)
  {
    ReadsFraction(w, f);
    WorthScaledBack(DigitsValue(w + f), |f|);
  }

  lemma {:induction false} UnsignedFraction(w: string, f: string)
    requires AllDigits(w) && AllDigits(f)
    ensures Unsigned(w + "." + f) == Some(Worth(Numeral(DigitsValue(w + f), |f|), 0))
  {
    var s := w + "." + f;
    FirstOfMissing(s, {'e', 'E'});
    assert s[..|s|] == s;
    MantissaOfFraction(w, f);
  }

  /** A string holding none of `cs` has no first occurrence of them. */
  lemma FirstOfMissing(s: string, cs: set<char>)
    requires forall i :: 0 <= i < |s| ==> s[i] !in cs
    ensures FirstOf(s, cs) == |s|
  {
  }

  /** The first occurrence of `cs` is where one sits with none before. */
  lemma FirstOfAt(s: string, cs: set<char>, k: nat)
    requires k < |s| && s[k] in cs
    requires forall j :: 0 <= j < k ==> s[j] !in cs
    ensures FirstOf(s, cs) == k
  {
  }

  lemma {:induction false} MantissaOfFraction(w: string, f: string)
    requires AllDigits(w) && AllDigits(f)
    ensures Mantissa(w + "." + f) == Some(Numeral(DigitsValue(w + f), |f|))
  {
    var s := w + "." + f;
    assert forall j :: 0 <= j < |w| ==> s[j] == w[j];
    FirstOfAt(s, {'.'}, |w|);
    assert s[..|w|] == w && s[|w| + 1..] == f;
    FractionalDigits(w, f);
  }

  lemma {:induction false} FractionalDigits(w: string, f: string)
    requires AllDigits(w) && AllDigits(f)
    ensures Fractional(w, f) == Some(Numeral(DigitsValue(w + f), |f|))
  {
    DigitsArePart(w);
    DigitsArePart(f);
  }

  /** A plain digit string is a digit part, its own digits. */
  lemma DigitsArePart(s: string)
    requires AllDigits(s)
    ensures DigitPart(s) && Digits(s) == s
  {
  }

  /** The sign only flips the value the rest of the text reads as. */
  lemma ReadBodySign(body: string)
    ensures ReadBody(body, true) == (match ReadBody(body, false) case None => None case Some(f) => Some(Negate(f)))
  {
  }

  /** A leading minus negates whatever the rest reads as. */
  lemma {:induction false} MinusNegates(s: string)
    requires NumberStrip(s) == s && s != [] && !IsSign(s[0])
    ensures ParseFloat("-" + s) == (match ParseFloat(s) case None => None case Some(f) => Some(Negate(f)))
  {
    var t := "-" + s;
    assert t[|t| - 1] == s[|s| - 1];
    assert !IsNumberSpace(s[|s| - 1]);
    NumberStripKeeps(t);
    assert t[1..] == s;
    assert ParseFloat(t) == ReadBody(s, true);
    assert ParseFloat(s) == ReadBody(s, false);
    ReadBodySign(s);
  }

  /** `int(s)` for text whose `strip()` is all digits, which is the only
      text the GUI hands it: the value of those digits, or `None` where
      `int()` raises because the whitespace around them is not all of the
      kind it skips. */
  function ReadInt(s: string): (r: Option<nat>)
    requires AllDigits(Strip(s))
    ensures r.Some? <==> NumberStrip(s) == Strip(s)
    ensures r.Some? ==> r.value == DigitsValue(Strip(s))
  {
    var t := NumberStrip(s);
    if AllDigits(t) then
      NumberStripAgrees(s);
      Some(DigitsValue(t))
    else None
  }

  /** An information separator before a number is whitespace to `strip()`
      but not to `int()` or `float()`, which raise. */
  lemma SeparatorNotSkipped()
    ensures Strip("\U{1C}5") == "5" && ReadInt("\U{1C}5") == None && ParseFloat("\U{1C}5") == None
  {
    var s := "\U{1C}5";
    assert LeadingSpaces(s) == 1 && LeadingNumberSpaces(s) == 0;
    assert s[1..] == "5";
    assert NumberStrip(s) == s;
    SeparatorIsNoNumeral();
  }

  lemma SeparatorIsNoNumeral()
    ensures Unsigned("\U{1C}5") == None
  {
    var s := "\U{1C}5";
    FirstOfMissing(s, {'e', 'E'});
    assert s[..|s|] == s;
    FirstOfMissing(s, {'.'});
  }

  /** An ideographic space, which is not ASCII, is whitespace to
      `float()` as it is to `strip()`. */
  lemma WideSpaceSkipped()
    ensures ParseFloat("\U{3000}5") == Some(Finite(5.0))
  {
    var u := "\U{3000}5";
    assert LeadingNumberSpaces(u) == 1;
    assert u[1..] == "5";
    assert NumberStrip(u) == "5";
    ReadsDecimal(5);
    assert Decimal(5) == "5";
  }
}

=== FILE: gui.dfy ===
/**
  * The state behind the GUI's file list.
  *
  * The list holds resolved absolute paths, without repeats, of files whose
  * extension is a supported image type; a thumbnail is kept for each
  * listed file whose preview could be made. The list operations are stated
  * for any acceptance test; the GUI uses `Supported`.
  */
module Gui {
  import opened Wrappers
  import opened Text
  import opened Paths

  /** The extensions the list accepts, compared lower-cased. */
  const SupportedExts: set<string> := {".jpg", ".jpeg", ".png", ".tiff", ".tif", ".bmp"}

  /** `Path(p).suffix.lower() in SUPPORTED_EXTS`. */
  predicate Supported(p: string)
  {
    Lower(Suffix(Name(p))) in SupportedExts
  }

  predicate NoRepeats<T(==)>(s: seq<T>)
  {
    forall i, j :: 0 <= i < j < |s| ==> s[i] != s[j]
  }

  predicate AllAccepted<T>(s: seq<T>, accept: T -> bool)
  {
    forall i :: 0 <= i < |s| ==> accept(s[i])
  }

  /** A preview image, of the size `thumbnail((120, 120))` gave it. */
  datatype Thumbnail = Thumbnail(width: nat, height: nat)

  /** What one path does to the list: its resolved form is appended unless
      it is already listed or not accepted. */
  function AddOne<T(==)>(files: seq<T>, p: T, accept: T -> bool): (r: seq<T>)
    ensures r == files || r == files + [p]
    ensures r == files + [p] <==> p !in files && accept(p)
  {
    if p in files then files
    else if !accept(p) then files
    else files + [p]
  }

  /** The list after `add_paths(paths)`, one path at a time in order. */
  function AddAll<T(==)>(files: seq<T>, paths: seq<T>, resolve: T -> T, accept: T -> bool): seq<T>
    decreases |paths|
  {
    if paths == [] then files
    else AddAll(AddOne(files, resolve(paths[0]), accept), paths[1..], resolve, accept)
  }

  /** The thumbnails made for newly listed files. */
  function Previews<T(==)>(added: seq<T>, preview: T -> Option<Thumbnail>): map<T, Thumbnail>
  {
    map p | p in added && preview(p).Some? :: preview(p).value
  }

  /** `list.remove(x)` when `x` is listed: the first occurrence goes. */
  function RemoveFirst<T(==)>(s: seq<T>, x: T): seq<T>
  {
    if s == [] then []
    else if s[0] == x then s[1..]
    else [s[0]] + RemoveFirst(s[1..], x)
  }

  /** One path: the list stays free of repeats and of rejected files. */
  lemma AddOneKeepsInvariant<T>(files: seq<T>, p: T, accept: T -> bool)
    requires NoRepeats(files) && AllAccepted(files, accept)
    ensures NoRepeats(AddOne(files, p, accept)) && AllAccepted(AddOne(files, p, accept), accept)
  {
  }

  /** Adding paths keeps the list free of repeats and of rejected files,
      and only appends to it. */
  lemma {:induction false} AddAllKeepsInvariant<T>(files: seq<T>, paths: seq<T>, resolve: T -> T,
                                                   accept: T -> bool)
    requires NoRepeats(files) && AllAccepted(files, accept)
    ensures var r := AddAll(files, paths, resolve, accept);
      && NoRepeats(r) && AllAccepted(r, accept)
      && |files| <= |r| && r[..|files|] == files
    decreases |paths|
  {
    if paths != [] {
      var next := AddOne(files, resolve(paths[0]), accept);
      AddOneKeepsInvariant(files, resolve(paths[0]), accept);
      AddAllKeepsInvariant(next, paths[1..], resolve, accept);
      assert next[..|files|] == files;
      var r := AddAll(files, paths, resolve, accept);
      assert r[..|files|] == r[..|next|][..|files|];
    }
  }

  /** A file is listed after adding exactly when it was listed before, or
      is the resolved form of an accepted input path. */
  lemma {:induction false} AddAllMembers<T>(files: seq<T>, paths: seq<T>, resolve: T -> T, accept: T -> bool,
                                            f: T)
    ensures f in AddAll(files, paths, resolve, accept) <==>
      f in files || (accept(f) && exists i :: 0 <= i < |paths| && resolve(paths[i]) == f)
    decreases |paths|
  {
    if paths != [] {
      var next := AddOne(files, resolve(paths[0]), accept);
      AddAllMembers(next, paths[1..], resolve, accept, f);
      if exists i :: 0 <= i < |paths[1..]| && resolve(paths[1..][i]) == f {
        var i :| 0 <= i < |paths[1..]| && resolve(paths[1..][i]) == f;
        assert resolve(paths[i + 1]) == f;
      }
      if exists i :: 0 <= i < |paths| && resolve(paths[i]) == f {
        var i :| 0 <= i < |paths| && resolve(paths[i]) == f;
        if i > 0 {
          assert resolve(paths[1..][i - 1]) == f;
        }
      }
    }
  }

  /** Once every path's resolved form is listed or rejected, adding the
      paths changes nothing. */
  lemma {:induction false} AddAllNothingNew<T>(files: seq<T>, paths: seq<T>, resolve: T -> T, accept: T -> bool)
    requires forall i :: 0 <= i < |paths| ==> resolve(paths[i]) in files || !accept(resolve(paths[i]))
    ensures AddAll(files, paths, resolve, accept) == files
    decreases |paths|
  {
    if paths != [] {
      assert AddOne(files, resolve(paths[0]), accept) == files;
      AddAllNothingNew(files, paths[1..], resolve, accept);
    }
  }

  /** Adding the same paths a second time adds nothing. */
  lemma {:induction false} AddAllIdempotent<T>(files: seq<T>, paths: seq<T>, resolve: T -> T, accept: T -> bool)
    ensures var r := AddAll(files, paths, resolve, accept);
      AddAll(r, paths, resolve, accept) == r
  {
    var r := AddAll(files, paths, resolve, accept);
    forall i | 0 <= i < |paths| ensures resolve(paths[i]) in r || !accept(resolve(paths[i])) {
      AddAllMembers(files, paths, resolve, accept, resolve(paths[i]));
    }
    AddAllNothingNew(r, paths, resolve, accept);
  }

  /** Removing `x` where it first occurs at `i` keeps every other entry,
      in order. */
  lemma {:induction false} RemoveFirstAt<T>(s: seq<T>, x: T, i: nat)
    requires i < |s| && s[i] == x && forall j :: 0 <= j < i ==> s[j] != x
    ensures RemoveFirst(s, x) == s[..i] + s[i + 1..]
  {
    if i > 0 {
      RemoveFirstAt(s[1..], x, i - 1);
      assert s[..i] == [s[0]] + s[1..][..i - 1];
      assert s[i + 1..] == s[1..][i..];
    }
  }

  /** In a list without repeats, removing a listed entry drops it and keeps
      the others, in order. */
  lemma {:induction false} RemoveFirstSplits<T>(s: seq<T>, x: T, i: nat, accept: T -> bool)
    requires NoRepeats(s) && AllAccepted(s, accept) && i < |s| && s[i] == x
    ensures RemoveFirst(s, x) == s[..i] + s[i + 1..]
    ensures x !in RemoveFirst(s, x) && NoRepeats(RemoveFirst(s, x)) && AllAccepted(RemoveFirst(s, x), accept)
  {
    RemoveFirstAt(s, x, i);
    var r := s[..i] + s[i + 1..];
    DropAt(s, i);
    forall a, b | 0 <= a < b < |r| ensures r[a] != r[b] {
      assert r[a] == s[if a < i then a else a + 1];
    }
    forall a | 0 <= a < |r| ensures r[a] != x && accept(r[a]) {
      assert r[a] == s[if a < i then a else a + 1];
    }
  }

  /** Where each entry lands once the one at `i` is dropped. */
  lemma DropAt<T>(s: seq<T>, i: nat)
    requires i < |s|
    ensures var r := s[..i] + s[i + 1..];
      |r| == |s| - 1 && forall k :: 0 <= k < |r| ==> r[k] == s[if k < i then k else k + 1]
  {
  }

  lemma RemoveListed<T>(s: seq<T>, x: T, accept: T -> bool)
    requires NoRepeats(s) && AllAccepted(s, accept) && x in s
    ensures x !in RemoveFirst(s, x) && NoRepeats(RemoveFirst(s, x)) && AllAccepted(RemoveFirst(s, x), accept)
  {
    var i :| 0 <= i < |s| && s[i] == x;
    RemoveFirstSplits(s, x, i, accept);
  }

  /** Removing `x` keeps every other entry listed. */
  lemma {:induction false} RemoveFirstKeepsOthers<T>(s: seq<T>, x: T)
    ensures forall y :: y != x ==> (y in RemoveFirst(s, x) <==> y in s)
  {
    if s != [] && s[0] != x {
      RemoveFirstKeepsOthers(s[1..], x);
    }
  }

  lemma MinusAbsent<K, V>(m: map<K, V>, k: K)
    requires k !in m
    ensures m - {k} == m
  {
  }

  /** Removing an entry that is not listed changes nothing. */
  lemma {:induction false} RemoveAbsent<T>(s: seq<T>, x: T)
    requires x !in s
    ensures RemoveFirst(s, x) == s
  {
    if s != [] {
      assert x !in s[1..];
      RemoveAbsent(s[1..], x);
    }
  }

  lemma AddAllStep<T>(files: seq<T>, paths: seq<T>, i: nat, resolve: T -> T, accept: T -> bool)
    requires i < |paths|
    ensures AddAll(files, paths[i..], resolve, accept) ==
            AddAll(AddOne(files, resolve(paths[i]), accept), paths[i + 1..], resolve, accept)
  {
    assert paths[i..][1..] == paths[i + 1..];
  }

  /** Appending one file adds its thumbnail, when it has one, to those
      already kept. */
  lemma AppendPreview<T>(before: map<T, Thumbnail>, files: seq<T>, start: nat, p: T,
                         preview: T -> Option<Thumbnail>)
    requires start <= |files|
    ensures before + Previews((files + [p])[start..], preview) ==
      (match preview(p) case Some(t) => (before + Previews(files[start..], preview))[p := t]
                        case None => before + Previews(files[start..], preview))
  {
    assert (files + [p])[start..] == files[start..] + [p];
  }

  /** The file list of `WatermarkGUI`: `files` and `thumbnails`. The
      widgets that show them are not modelled. `accept` is the extension
      check of `add_paths`, fixed to `Supported` when the GUI is built. */
  class WatermarkGui {
    const accept: string -> bool
    var files: seq<string>
    var thumbnails: map<string, Thumbnail>

    predicate Valid()
      reads this
    {
      && NoRepeats(files)
      && AllAccepted(files, accept)
      && (forall p :: p in thumbnails ==> p in files)
    }

    constructor ()
      ensures Valid() && files == [] && thumbnails == map[]
      ensures forall p :: accept(p) == Supported(p)
    {
      accept := Supported;
      files := [];
      thumbnails := map[];
    }

    /** `add_paths`: resolve each path, skip it if already listed or not a
        supported image, otherwise append it and keep its thumbnail when
        a preview can be made. `added` is the number appended. */
    method AddPaths(paths: seq<string>, resolve: string -> string, preview: string -> Option<Thumbnail>)
      returns (added: nat)
      requires Valid()
      modifies this
      ensures Valid()
      ensures files == AddAll(old(files), paths, resolve, accept)
      ensures |old(files)| <= |files| && files[..|old(files)|] == old(files)
      ensures added == |files| - |old(files)|
      ensures thumbnails == old(thumbnails) + Previews(files[|old(files)|..], preview)
    {
      ghost var start, before := files, thumbnails;
      var listed, kept := files, thumbnails;
      added := 0;
      var i := 0;
      while i < |paths|
        invariant 0 <= i <= |paths|
        invariant NoRepeats(listed) && AllAccepted(listed, accept)
        invariant forall q :: q in kept ==> q in listed
        invariant AddAll(listed, paths[i..], resolve, accept) == AddAll(start, paths, resolve, accept)
        invariant |start| <= |listed| && listed[..|start|] == start
        invariant added == |listed| - |start|
        invariant kept == before + Previews(listed[|start|..], preview)
      {
        var p := resolve(paths[i]);
        AddAllStep(listed, paths, i, resolve, accept);
        AddOneKeepsInvariant(listed, p, accept);
        if p !in listed && accept(p) {
          AppendPreview(before, listed, |start|, p, preview);
          listed := listed + [p];
          match preview(p) {
            case Some(t) => kept := kept[p := t];
            case None =>
          }
          added := added + 1;
        }
        i := i + 1;
      }
      assert paths[i..] == [];
      files, thumbnails := listed, kept;
    }

    /** `_remove_item`: drop the path from the list if it is listed, and
        its thumbnail if it has one. */
    method RemoveItem(path: string)
      requires Valid()
      modifies this
      ensures Valid()
      ensures files == RemoveFirst(old(files), path)
      ensures path !in files
      ensures thumbnails == old(thumbnails) - {path}
    {
      RemoveFirstKeepsOthers(files, path);
      if path in files {
        RemoveListed(files, path, accept);
        files := RemoveFirst(files, path);
      } else {
        RemoveAbsent(files, path);
      }
      if path in thumbnails {
        thumbnails := thumbnails - {path};
      } else {
        MinusAbsent(thumbnails, path);
      }
    }

    /** `clear_files`: the list and the thumbnails are emptied. */
    method ClearFiles()
      modifies this
      ensures Valid() && files == [] && thumbnails == map[]
    {
      files := [];
      thumbnails := map[];
    }
  }
}

=== FILE: gui_options.dfy ===
/**
  * `_gather_options`: the GUI's export panel read into the options of a
  * batch. Entry fields arrive as the text they hold; sliders as the real
  * numbers they report; spin boxes as the integers they hold; check boxes
  * as booleans.
  */
module GuiOptions {
  import opened Wrappers
  import opened Text
  import opened FloatText

  datatype Fields = Fields(
    format: string,
    outputDir: string,
    allowSameDir: bool,
    quality: real,
    prefix: string,
    suffix: string,
    resizeWidth: string,
    resizeHeight: string,
    resizePercent: string,
    fontSize: int,
    color: string,
    position: string,
    textContent: string,
    textColor: string,
    textOpacity: real,
    fontPath: string,
    strokeWidth: int,
    strokeColor: string,
    shadow: bool,
    shadowOffset: int,
    shadowColor: string,
    shadowOpacity: real,
    logoPath: string,
    logoScale: string,
    logoWidth: string,
    logoHeight: string,
    logoOpacity: real)

  datatype Options = Options(
    outputDir: string,
    allowSameDir: bool,
    outputFormat: Option<string>,
    jpegQuality: int,
    namePrefix: string,
    nameSuffix: string,
    resizeWidth: Option<nat>,
    resizeHeight: Option<nat>,
    resizePercent: Option<Float>,
    fontSize: int,
    color: string,
    position: string,
    textContent: Option<string>,
    textColor: string,
    textOpacity: int,
    fontPath: Option<string>,
    textStrokeWidth: int,
    textStrokeColor: string,
    textShadow: bool,
    textShadowOffset: int,
    textShadowColor: string,
    textShadowOpacity: int,
    logoPath: Option<string>,
    logoScalePercent: Option<Float>,
    logoWidth: Option<nat>,
    logoHeight: Option<nat>,
    logoOpacity: int)

  /** The ways `_gather_options` fails: a logo scale that is not a number
      makes `float()` raise; a logo size whose trimmed text is digits but
      whose whitespace `int()` does not skip makes `int()` raise. */
  datatype OptionsError = LogoScaleNotANumber | LogoSizeNotANumber

  /** `int(x)` for a real `x`: truncation toward zero. */
  function Trunc(x: real): (n: int)
    ensures 0.0 <= x ==> n as real <= x < n as real + 1.0
    ensures x < 0.0 ==> n as real - 1.0 < x <= n as real
  {
    if x >= 0.0 then x.Floor else -((-x).Floor)
  }

  /** `int(s) if s.strip().isdigit() else None`: a whole number only when
      the trimmed field is nothing but digits. */
  function WholeNumber(s: string): (r: Option<nat>)
    ensures r.Some? <==> AllDigits(Strip(s))
  {
    var t := Strip(s);
    if AllDigits(t) then Some(DigitsValue(t)) else None
  }

  /** A logo size, `int(s) if s.strip().isdigit() else None`: the test
      trims `s`, but `int()` reads it untrimmed. Where `int()` does not
      raise, the size is the whole number of the trimmed text. */
  function LogoSize(s: string): (r: Result<Option<nat>, OptionsError>)
    ensures r.Err? <==> AllDigits(Strip(s)) && NumberStrip(s) != Strip(s)
    ensures r.Ok? ==> r.value == WholeNumber(s)
  {
    if !AllDigits(Strip(s)) then Ok(None)
    else
      match ReadInt(s)
      case None => Err(LogoSizeNotANumber)
      case Some(n) => Ok(Some(n))
  }

  /** `s.strip() or default`. */
  function OrDefault(s: string, default: string): (r: string)
    ensures Strip(s) == [] ==> r == default
    ensures Strip(s) != [] ==> r == Strip(s)
  {
    var t := Strip(s);
    if t == [] then default else t
  }

  /** `s.strip() or None`. */
  function OrNone(s: string): (r: Option<string>)
    ensures r.None? <==> Strip(s) == []
    ensures r.Some? ==> r.value == Strip(s) && !IsSpace(r.value[0]) && !IsSpace(r.value[|r.value| - 1])
  {
    var t := Strip(s);
    if t == [] then None else Some(t)
  }

  /** The resize percentage: blank or unreadable text gives none. */
  function Percent(s: string): (r: Option<Float>)
    ensures r.None? <==> Strip(s) == [] || ParseFloat(Strip(s)).None?
  {
    var t := Strip(s);
    if t == [] then None else ParseFloat(t)
  }

  /** The options built from the fields once the two numbers typed as
      text have been read: the resize percentage and the logo scale. What
      each option means is stated by the lemmas below. */
  function Assemble(f: Fields, resizePercent: Option<Float>, logoScale: Option<Float>): Options
  {
    Options(
      outputDir := Strip(f.outputDir),
      allowSameDir := f.allowSameDir,
      outputFormat := if f.format == "auto" then None else Some(f.format),
      jpegQuality := Trunc(f.quality),
      namePrefix := f.prefix,
      nameSuffix := f.suffix,
      resizeWidth := WholeNumber(f.resizeWidth),
      resizeHeight := WholeNumber(f.resizeHeight),
      resizePercent := resizePercent,
      fontSize := f.fontSize,
      color := OrDefault(f.color, "white"),
      position := f.position,
      textContent := OrNone(f.textContent),
      textColor := OrDefault(f.textColor, "white"),
      textOpacity := Trunc(f.textOpacity),
      fontPath := OrNone(f.fontPath),
      textStrokeWidth := f.strokeWidth,
      textStrokeColor := OrDefault(f.strokeColor, "black"),
      textShadow := f.shadow,
      textShadowOffset := f.shadowOffset,
      textShadowColor := OrDefault(f.shadowColor, "black"),
      textShadowOpacity := Trunc(f.shadowOpacity),
      logoPath := OrNone(f.logoPath),
      logoScalePercent := logoScale,
      logoWidth := WholeNumber(f.logoWidth),
      logoHeight := WholeNumber(f.logoHeight),
      logoOpacity := Trunc(f.logoOpacity))
  }

  /** `auto` means no format and any other format is passed on; the
      output directory is trimmed; prefix, suffix and position are passed
      on as typed; a quality slider reading in 0..100 stays in 0..100. */
  lemma AssembleNames(f: Fields, resizePercent: Option<Float>, logoScale: Option<Float>)
    ensures var o := Assemble(f, resizePercent, logoScale);
      && (o.outputFormat.None? <==> f.format == "auto")
      && (o.outputFormat.Some? ==> o.outputFormat.value == f.format)
      && o.outputDir == Strip(f.outputDir) && o.allowSameDir == f.allowSameDir
      && o.namePrefix == f.prefix && o.nameSuffix == f.suffix && o.position == f.position
      && (0.0 <= f.quality <= 100.0 ==> 0 <= o.jpegQuality <= 100)
  {
  }

  /** A size field gives a number exactly when its trimmed text is all
      digits, and then the value of those digits; the two numbers read as
      text are passed on. */
  lemma AssembleSizes(f: Fields, resizePercent: Option<Float>, logoScale: Option<Float>)
    ensures var o := Assemble(f, resizePercent, logoScale);
      && (o.resizeWidth.Some? <==> AllDigits(Strip(f.resizeWidth)))
      && (o.resizeHeight.Some? <==> AllDigits(Strip(f.resizeHeight)))
      && (o.logoWidth.Some? <==> AllDigits(Strip(f.logoWidth)))
      && (o.logoHeight.Some? <==> AllDigits(Strip(f.logoHeight)))
      && (o.resizeWidth.Some? ==> o.resizeWidth.value == DigitsValue(Strip(f.resizeWidth)))
      && (o.resizeHeight.Some? ==> o.resizeHeight.value == DigitsValue(Strip(f.resizeHeight)))
      && (o.logoWidth.Some? ==> o.logoWidth.value == DigitsValue(Strip(f.logoWidth)))
      && (o.logoHeight.Some? ==> o.logoHeight.value == DigitsValue(Strip(f.logoHeight)))
      && o.resizePercent == resizePercent && o.logoScalePercent == logoScale
  {
  }

  /** Blank text, font and logo fields give none; filled ones are passed on
      trimmed. */
  lemma AssembleBlanks(f: Fields, resizePercent: Option<Float>, logoScale: Option<Float>)
    ensures var o := Assemble(f, resizePercent, logoScale);
      && (o.textContent.None? <==> Strip(f.textContent) == [])
      && (o.fontPath.None? <==> Strip(f.fontPath) == [])
      && (o.logoPath.None? <==> Strip(f.logoPath) == [])
      && (o.textContent.Some? ==> o.textContent.value == Strip(f.textContent))
  {
  }

  /** `_gather_options()`: fails on a logo scale that is neither blank nor
      a number, which is read first, and on a logo size `int()` cannot read;
      otherwise a blank logo scale gives none, a readable one its value, and
      each logo size what `int()` read. */
  function GatherOptions(f: Fields): (r: Result<Options, OptionsError>)
    ensures r.Err? <==> (Strip(f.logoScale) != [] && ParseFloat(f.logoScale).None?) ||
                        LogoSize(f.logoWidth).Err? || LogoSize(f.logoHeight).Err?
    ensures r.Err? ==> (r.error == LogoScaleNotANumber <==> Strip(f.logoScale) != [] && ParseFloat(f.logoScale).None?)
    ensures r.Ok? ==> r.value.logoWidth == LogoSize(f.logoWidth).value && r.value.logoHeight == LogoSize(f.logoHeight).value
    ensures r.Ok? ==> (r.value.logoScalePercent.None? <==> Strip(f.logoScale) == [])
    ensures r.Ok? && Strip(f.logoScale) != [] ==> r.value.logoScalePercent == ParseFloat(f.logoScale)
    ensures r.Ok? ==> (r.value.resizePercent.None? <==>
                         Strip(f.resizePercent) == [] || ParseFloat(Strip(f.resizePercent)).None?)
    ensures r.Ok? ==> r.value == Assemble(f, r.value.resizePercent, r.value.logoScalePercent)
  {
    var percent := Percent(f.resizePercent);
    var scale := if Strip(f.logoScale) == [] then Ok(None)
                 else match ParseFloat(f.logoScale)
                      case None => Err(LogoScaleNotANumber)
                      case Some(v) => Ok(Some(v));
    if scale.Err? then Err(scale.error)
    else if LogoSize(f.logoWidth).Err? || LogoSize(f.logoHeight).Err? then Err(LogoSizeNotANumber)
    else Ok(Assemble(f, percent, scale.value))
  }

  /** A field holding `str(n)`, with any whitespace around it, reads back
      as `n`, the decimal value of its digits. */
  lemma {:induction false} WholeNumberReadsDecimal(n: nat, before: string, after: string)
    requires forall i :: 0 <= i < |before| ==> IsSpace(before[i])
    requires forall i :: 0 <= i < |after| ==> IsSpace(after[i])
    ensures WholeNumber(before + Decimal(n) + after) == Some(n)
  {
    var d := Decimal(n);
    StripPadded(before, d, after);
  }

  /** Whitespace around a word that neither starts nor ends with whitespace
      is what `strip()` removes. */
  lemma {:induction false} StripPadded(before: string, w: string, after: string)
    requires w != [] && !IsSpace(w[0]) && !IsSpace(w[|w| - 1])
    requires forall i :: 0 <= i < |before| ==> IsSpace(before[i])
    requires forall i :: 0 <= i < |after| ==> IsSpace(after[i])
    ensures Strip(before + w + after) == w
  {
    var s := before + w + after;
    assert s[|before|] == w[0];
    assert LeadingSpaces(s) == |before|;
    var r := Strip(s);
    assert s[|before| + |w| - 1] == w[|w| - 1];
    assert r == s[|before|..|before| + |r|];
    assert |r| == |w|;
    assert s[|before|..|before| + |w|] == w;
  }

  /** A colour name that is neither blank nor padded with whitespace. */
  predicate Trimmed(c: string)
  {
    c != [] && !IsSpace(c[0]) && !IsSpace(c[|c| - 1])
  }

  /** A blank colour field falls back to its default and a filled one is
      used trimmed, so no colour handed on is blank or padded. */
  lemma {:induction false} ColourDefaults(f: Fields, resizePercent: Option<Float>, logoScale: Option<Float>)
    ensures var o := Assemble(f, resizePercent, logoScale);
      && o.color == (if Strip(f.color) == [] then "white" else Strip(f.color))
      && o.textColor == (if Strip(f.textColor) == [] then "white" else Strip(f.textColor))
      && o.textStrokeColor == (if Strip(f.strokeColor) == [] then "black" else Strip(f.strokeColor))
      && o.textShadowColor == (if Strip(f.shadowColor) == [] then "black" else Strip(f.shadowColor))
      && Trimmed(o.color) && Trimmed(o.textColor) && Trimmed(o.textStrokeColor) && Trimmed(o.textShadowColor)
  {
    var white := "white";
    var black := "black";
    assert white[0] == 'w' && white[4] == 'e';
    assert black[0] == 'b' && black[4] == 'k';
    OrDefaultTrimmed(f.color, white);
    OrDefaultTrimmed(f.textColor, white);
    OrDefaultTrimmed(f.strokeColor, black);
    OrDefaultTrimmed(f.shadowColor, black);
  }

  lemma OrDefaultTrimmed(s: string, default: string)
    requires Trimmed(default)
    ensures Trimmed(OrDefault(s, default))
  {
  }

  /** A percentage typed as `str(n)` reaches the options as the number
      `n`. */
  lemma {:induction false} PercentReadsDecimal(n: nat)
    ensures Percent(Decimal(n)) == Some(Finite(n as real))
  {
    var d := Decimal(n);
    StripPadded([], d, []);
    assert [] + d + [] == d;
    ReadsDecimal(n);
  }


  /** A logo scale holding `5` after an information separator passes the
      blank test but not `float()`: the options are refused. */
  lemma SeparatorBeforeLogoScale(f: Fields)
    requires f.logoScale == "\U{1C}5"
    ensures GatherOptions(f) == Err(LogoScaleNotANumber)
  {
    SeparatorNotSkipped();
  }

  /** With a blank logo scale, a logo width holding `5` after an
      information separator passes `strip().isdigit()` but not `int()`: the
      options are refused. */
  lemma SeparatorBeforeLogoWidth(f: Fields)
    requires Strip(f.logoScale) == [] && f.logoWidth == "\U{1C}5"
    ensures GatherOptions(f) == Err(LogoSizeNotANumber)
  {
    SeparatorLogoSize();
  }

  lemma SeparatorLogoSize()
    ensures LogoSize("\U{1C}5").Err?
  {
    SeparatorNotSkipped();
    var five := "5";
    assert AllDigits(five);
  }
}

=== FILE: naming.dfy ===
/**
  * Output names and output formats: `build_output_filename`, which names
  * every exported file, and the format choice at the end of
  * `add_watermark`, which picks the encoder.
  */
module Naming {
  import opened Wrappers
  import opened Text
  import opened Paths

  /** Python truthiness of an optional string: neither `None` nor "". */
  predicate Given(s: Option<string>)
  {
    s.Some? && s.value != ""
  }

  /** `Path(name).suffix.lstrip('.')`: the extension without its dot. */
  function ExtensionOf(name: string): (e: string)
    ensures Suffix(name) == (if e == [] then [] else "." + e)
    ensures forall i :: 0 <= i < |e| ==> e[i] != '.'
  {
    SuffixStripsToTail(name);
    LStrip(Suffix(name), '.')
  }

  lemma SuffixStripsToTail(name: string)
    ensures Suffix(name) == [] || LStrip(Suffix(name), '.') == Suffix(name)[1..]
  {
    var s := Suffix(name);
    if s != [] {
      assert s[1..][0] == s[1] != '.';
    }
  }

  predicate DotFree(s: string)
  {
    forall i :: 0 <= i < |s| ==> s[i] != '.'
  }

  lemma LowerKeepsDotFree(s: string)
    requires DotFree(s)
    ensures DotFree(Lower(s))
  {
  }

  /** The output extension has no dot, unless a requested format has one. */
  lemma {:induction false} OutputExtensionDotFree(originalName: string, outputFormat: Option<string>)
    requires Given(outputFormat) ==> DotFree(outputFormat.value)
    ensures DotFree(OutputExtension(originalName, outputFormat))
  {
    var source := if Given(outputFormat) then outputFormat.value else ExtensionOf(originalName);
    LowerKeepsDotFree(source);
    JpegDotFree();
    var e := Lower(source);
    assert OutputExtension(originalName, outputFormat) == if e == "jpg" then "jpeg" else e;
  }

  lemma JpegDotFree()
    ensures DotFree("jpeg")
  {
    var jpeg := "jpeg";
    assert jpeg[0] == 'j' && jpeg[1] == 'p' && jpeg[2] == 'e' && jpeg[3] == 'g';
  }

  /** The extension `build_output_filename` writes: the requested format if
      one is given, otherwise the original extension, lower-cased, with
      `jpg` spelled `jpeg`. */
  function OutputExtension(originalName: string, outputFormat: Option<string>): (ext: string)
    ensures IsLower(ext) && ext != "jpg"
    ensures Given(outputFormat) ==>
      ext == (if Lower(outputFormat.value) == "jpg" then "jpeg" else Lower(outputFormat.value))
    ensures !Given(outputFormat) ==>
      ext == (if Lower(ExtensionOf(originalName)) == "jpg" then "jpeg" else Lower(ExtensionOf(originalName)))
  {
    var e := Lower(if Given(outputFormat) then Lower(outputFormat.value) else ExtensionOf(originalName));
    if e == "jpg" then "jpeg" else e
  }

  /** `build_output_filename(original_name, prefix, suffix, output_format)`:
      the prefix, the original stem, the suffix, a dot, and the output
      extension. */
  function BuildOutputFilename(originalName: string, prefix: string, suffix: string,
                               outputFormat: Option<string>): (name: string)
    ensures var base := prefix + Stem(originalName) + suffix;
      |name| > |base| && name[..|base|] == base && name[|base|] == '.' &&
      name[|base| + 1..] == OutputExtension(originalName, outputFormat)
  {
    var base := prefix + Stem(originalName) + suffix;
    var name := base + "." + OutputExtension(originalName, outputFormat);
    assert name[..|base|] == base;
    name
  }

  /** The format name `add_watermark` saves with: the requested format, or
      the output path's extension, lower-cased (here `jpg` stays `jpg`). */
  function SaveFormat(outputFormat: Option<string>, outputName: string): (fmt: string)
    ensures IsLower(fmt)
  {
    Lower(if Given(outputFormat) then outputFormat.value else ExtensionOf(outputName))
  }

  /** The three ways `add_watermark` calls `img.save`: as JPEG with the
      requested quality, as PNG, or with the format Pillow infers from the
      file name. */
  datatype Encoder = JpegEncoder | PngEncoder | InferredEncoder

  function EncoderFor(fmt: string): (enc: Encoder)
    ensures enc == JpegEncoder <==> fmt in {"jpg", "jpeg"}
    ensures enc == PngEncoder <==> fmt == "png"
  {
    if fmt == "jpg" || fmt == "jpeg" then JpegEncoder
    else if fmt == "png" then PngEncoder
    else InferredEncoder
  }

  /** Reading a built name back with `pathlib` gives the parts it was built
      from: its extension is the output extension, and its stem is the
      prefix, the original stem and the suffix. */
  lemma {:induction false} OutputNameRoundTrip(originalName: string, prefix: string, suffix: string,
                                               outputFormat: Option<string>)
    requires prefix + Stem(originalName) + suffix != []
    requires OutputExtension(originalName, outputFormat) != []
    requires Given(outputFormat) ==> DotFree(outputFormat.value)
    ensures var name := BuildOutputFilename(originalName, prefix, suffix, outputFormat);
      ExtensionOf(name) == OutputExtension(originalName, outputFormat) &&
      Stem(name) == prefix + Stem(originalName) + suffix
  {
    var base := prefix + Stem(originalName) + suffix;
    var ext := OutputExtension(originalName, outputFormat);
    var name := BuildOutputFilename(originalName, prefix, suffix, outputFormat);
    assert name == base + "." + ext;
    OutputExtensionDotFree(originalName, outputFormat);
    SplitJoined(base, ext);
    SuffixStripsToTail(name);
  }

  /** A name built without an extension ends in a bare dot, which pathlib
      does not count as an extension. */
  lemma {:induction false} EmptyExtensionReadsEmpty(base: string)
    ensures ExtensionOf(base + ".") == []
  {
    var name := base + ".";
    assert RFind(name, '.') == |base|;
  }

  /** When the batch saves a file under the name it built, the encoder
      `add_watermark` picks from that name agrees with the extension the
      name carries, with or without an explicit format. */
  lemma {:induction false} EncoderMatchesOutputName(originalName: string, prefix: string, suffix: string,
                                                    outputFormat: Option<string>)
    requires Given(outputFormat) ==> DotFree(outputFormat.value)
    ensures var name := BuildOutputFilename(originalName, prefix, suffix, outputFormat);
      EncoderFor(SaveFormat(outputFormat, name)) == EncoderFor(OutputExtension(originalName, outputFormat))
  {
    if Given(outputFormat) {
      LowerTwice(outputFormat.value);
    } else if OutputExtension(originalName, outputFormat) == [] {
      var base := prefix + Stem(originalName) + suffix;
      assert BuildOutputFilename(originalName, prefix, suffix, outputFormat) == base + ".";
      EmptyExtensionReadsEmpty(base);
    } else {
      InferredFormatMatches(originalName, prefix, suffix, outputFormat);
    }
  }

  lemma {:induction false} InferredFormatMatches(originalName: string, prefix: string, suffix: string,
                                                 outputFormat: Option<string>)
    requires !Given(outputFormat) && OutputExtension(originalName, outputFormat) != []
    ensures var name := BuildOutputFilename(originalName, prefix, suffix, outputFormat);
      SaveFormat(outputFormat, name) == OutputExtension(originalName, outputFormat)
  {
    var ext := OutputExtension(originalName, outputFormat);
    assert ExtensionOf(originalName) != [];
    StemSuffixSplit(originalName);
    OutputNameRoundTrip(originalName, prefix, suffix, outputFormat);
    LowerKeepsLower(ext);
  }

  /** With a dot-free format, the built name determines the original stem:
      two originals receive the same output name only when their stems
      agree (their extensions may differ). */
  lemma {:induction false} SameOutputNameSameStem(name1: string, name2: string, prefix: string, suffix: string,
                                                  outputFormat: Option<string>)
    requires Given(outputFormat) ==> DotFree(outputFormat.value)
    requires BuildOutputFilename(name1, prefix, suffix, outputFormat) ==
             BuildOutputFilename(name2, prefix, suffix, outputFormat)
    ensures Stem(name1) == Stem(name2)
  {
    var base1 := prefix + Stem(name1) + suffix;
    var base2 := prefix + Stem(name2) + suffix;
    OutputExtensionDotFree(name1, outputFormat);
    OutputExtensionDotFree(name2, outputFormat);
    BuiltName(name1, prefix, suffix, outputFormat);
    BuiltName(name2, prefix, suffix, outputFormat);
    DotSplitUnique(base1, OutputExtension(name1, outputFormat), base2, OutputExtension(name2, outputFormat));
    MiddleUnique(prefix, Stem(name1), Stem(name2), suffix);
  }

  lemma BuiltName(originalName: string, prefix: string, suffix: string, outputFormat: Option<string>)
    ensures BuildOutputFilename(originalName, prefix, suffix, outputFormat) ==
            prefix + Stem(originalName) + suffix + "." + OutputExtension(originalName, outputFormat)
  {
  }

  /** Where the dot before a dot-free extension sits, and that none
      follows it. */
  lemma {:induction false} LastDot(base: string, ext: string)
    requires DotFree(ext)
    ensures var s := base + "." + ext;
      s[|base|] == '.' && forall k :: |base| < k < |s| ==> s[k] != '.'
  {
    var s := base + "." + ext;
    forall k | |base| < k < |s| ensures s[k] != '.' {
      assert s[k] == ext[k - |base| - 1];
    }
  }

  /** A name with a dot-free extension splits at its last dot in one way
      only. */
  lemma {:induction false} DotSplitUnique(base1: string, ext1: string, base2: string, ext2: string)
    requires DotFree(ext1) && DotFree(ext2)
    requires base1 + "." + ext1 == base2 + "." + ext2
    ensures base1 == base2
  {
    var s := base1 + "." + ext1;
    LastDot(base1, ext1);
    LastDot(base2, ext2);
    assert |base1| == |base2|;
    assert base1 == s[..|base1|];
    assert base2 == (base2 + "." + ext2)[..|base2|];
  }

  lemma {:induction false} MiddleUnique(prefix: string, m1: string, m2: string, suffix: string)
    requires prefix + m1 + suffix == prefix + m2 + suffix
    ensures m1 == m2
  {
    var s := prefix + m1 + suffix;
    assert |m1| == |m2|;
    assert m1 == s[|prefix|..|prefix| + |m1|];
    assert m2 == (prefix + m2 + suffix)[|prefix|..|prefix| + |m2|];
  }

  lemma LowerKeepsLower(s: string)
    requires IsLower(s)
    ensures Lower(s) == s
  {
  }

  lemma LowerTwice(s: string)
    ensures Lower(Lower(s)) == Lower(s)
  {
  }
}

=== FILE: paths.dfy ===
/**
  * The lexical parts of a POSIX path that `pathlib` computes without
  * touching the file system: its components, the final one (`.name`), its
  * extension (`.suffix`), the final component without that extension
  * (`.stem`), and the path `p / name` spells.
  */
module Paths {

  /** `s.rfind(c)`: the index of the last `c` in `s`, or -1. */
  function RFind(s: string, c: char): (i: int)
    ensures -1 <= i < |s|
    ensures i >= 0 ==> s[i] == c
    ensures forall j :: i < j < |s| ==> s[j] != c
  {
    if s == [] then -1
    else if s[|s| - 1] == c then |s| - 1
    else RFind(s[..|s| - 1], c)
  }

  /** A component `pathlib` keeps: not empty, not `.`, and free of `/`. */
  predicate Proper(c: string)
  {
    c != "" && c != "." && forall i :: 0 <= i < |c| ==> c[i] != '/'
  }

  /** `PurePosixPath(p).parts` less the root: the pieces between the
      separators, in order, with the empty ones (from repeated, leading or
      trailing `/`) and the `.` ones dropped. */
  function Parts(p: string): (cs: seq<string>)
    ensures forall i :: 0 <= i < |cs| ==> Proper(cs[i])
    decreases |p|
  {
    if p == [] then []
    else
      var k := RFind(p, '/');
      var last := p[k + 1..];
      var init := if k < 0 then [] else Parts(p[..k]);
      assert forall i :: 0 <= i < |last| ==> last[i] == p[k + 1 + i];
      if last == "" || last == "." then init else init + [last]
  }

  /** The root of a POSIX path: `//` for exactly two leading separators,
      `/` for one or for three and more, none for a relative path. */
  function Root(p: string): (r: string)
    ensures r == "" || r == "/" || r == "//"
    ensures |r| <= |p| && r == p[..|r|]
  {
    if |p| >= 2 && p[0] == '/' && p[1] == '/' && (|p| == 2 || p[2] != '/') then "//"
    else if |p| >= 1 && p[0] == '/' then "/"
    else ""
  }

  /** Components joined by single separators. */
  function JoinParts(cs: seq<string>): (r: string)
    ensures |cs| == 1 ==> r == cs[0]
  {
    if cs == [] then ""
    else if |cs| == 1 then cs[0]
    else JoinParts(cs[..|cs| - 1]) + "/" + cs[|cs| - 1]
  }

  /** `PurePosixPath(p).name`: the last component kept, or "" when there
      is none (`.`, the empty path, a bare root). */
  function Name(p: string): (n: string)
    ensures n == "" || Proper(n)
    ensures Parts(p) == [] ==> n == ""
    ensures Parts(p) != [] ==> n == Parts(p)[|Parts(p)| - 1]
  {
    var cs := Parts(p);
    if cs == [] then "" else cs[|cs| - 1]
  }

  /** `str(PurePosixPath(p) / c)` for a single component `c`: the root of
      `p`, then its components and `c`, joined by single separators. */
  function Child(p: string, c: string): (r: string)
    requires Proper(c)
    ensures Parts(p) == [] ==> r == Root(p) + c
  {
    Root(p) + JoinParts(Parts(p) + [c])
  }

  /** A child of a path made of one relative component `d` is `d/c`. */
  lemma ChildOfSingle(d: string, c: string)
    requires Proper(d) && Proper(c)
    ensures Child(d, c) == d + "/" + c
  {
    SingleParts(d);
    var cs := [d] + [c];
    assert cs[..1] == [d];
    assert JoinParts(cs) == JoinParts([d]) + "/" + c;
  }

  /** A path of one proper component is that component. */
  lemma SingleParts(c: string)
    requires Proper(c)
    ensures Parts(c) == [c] && Root(c) == ""
  {
    assert RFind(c, '/') == -1;
    assert c[0..] == c;
  }

  /** A proper component after a name, if any, is a proper component. */
  lemma {:induction false} AppendedProper(n: string, tail: string)
    requires n == "" || Proper(n)
    requires Proper(tail)
    ensures Proper(n + tail)
  {
    var r := n + tail;
    assert forall i :: |n| <= i < |r| ==> r[i] == tail[i - |n|];
    if n == "" {
      assert r == tail;
    } else {
      assert |r| >= 2;
    }
  }

  /** A single proper component is its own name. */
  lemma NameOfSingle(c: string)
    requires Proper(c)
    ensures Name(c) == c
  {
    SingleParts(c);
  }

  /** Trailing separators and `.` components change neither the
      components nor the root of a path that does not start at the root. */
  lemma TrailingIgnored(p: string, tail: string)
    requires p != [] && p[0] != '/'
    requires tail == "/" || tail == "/."
    ensures Parts(p + tail) == Parts(p) && Root(p + tail) == Root(p)
  {
    var q := p + tail;
    assert q[|p|] == '/';
    if tail == "/" {
      assert RFind(q, '/') == |p|;
      assert q[..|p|] == p;
    } else {
      assert q[|q| - 1] == '.';
      assert RFind(q, '/') == |p|;
      assert q[|p| + 1..] == ".";
      assert q[..|p|] == p;
    }
  }

  /** Where a file name's extension starts, when it has one: at its last dot,
      provided that dot is neither the first nor the last character. */
  predicate HasSuffix(name: string)
  {
    0 < RFind(name, '.') < |name| - 1
  }

  /** `PurePath(name).suffix`: the extension including its dot, or "". */
  function Suffix(name: string): (s: string)
    ensures s == [] || (|s| >= 2 && s[0] == '.')
    ensures forall i :: 1 <= i < |s| ==> s[i] != '.'
  {
    if HasSuffix(name) then name[RFind(name, '.')..] else ""
  }

  /** `PurePath(name).stem`: the name without its extension. */
  function Stem(name: string): (s: string)
  {
    if HasSuffix(name) then name[..RFind(name, '.')] else name
  }

  /** The stem and the suffix together give back the name. */
  lemma StemSuffixSplit(name: string)
    ensures Stem(name) + Suffix(name) == name
    ensures HasSuffix(name) ==> Stem(name) != []
  {
  }

  /** Putting a dot and a dot-free extension after a non-empty stem gives
      a name whose stem and suffix are exactly those parts. */
  lemma {:induction false} SplitJoined(stem: string, ext: string)
    requires stem != [] && |ext| >= 1
    requires forall i :: 0 <= i < |ext| ==> ext[i] != '.'
    ensures Suffix(stem + "." + ext) == "." + ext
    ensures Stem(stem + "." + ext) == stem
  {
    var n := stem + "." + ext;
    assert n[|stem|] == '.';
    assert forall j :: |stem| < j < |n| ==> n[j] == ext[j - |stem| - 1];
    assert RFind(n, '.') == |stem|;
  }
}

=== FILE: position.dfy ===
/**
  * Where the date label is drawn: `PhotoWatermark.calculate_position` maps
  * an anchor name, the image size and the measured text size to the
  * top-left pixel of the text, keeping a fixed 20 px margin from the edges
  * it is anchored to. Five anchor names are recognised; any other string
  * falls back to the top-left corner.
  */
module Position {

  /** The fixed distance between the text and the edges it is anchored to. */
  const Margin: int := 20

  datatype Point = Point(x: int, y: int)

  /** The names with a branch of their own; everything else is top-left. */
  predicate IsRightAnchored(position: string)
  {
    position == "top-right" || position == "bottom-right"
  }

  predicate IsBottomAnchored(position: string)
  {
    position == "bottom-left" || position == "bottom-right"
  }

  /** `calculate_position`. Text sizes come from the font's bounding box
      and are not constrained here, just as the source does not check them.
      The contract states the gaps the text leaves: a right or bottom anchor
      leaves exactly the margin between the text and that edge, a left or
      top anchor (and any unrecognised name) puts the text exactly the
      margin away from the left or top edge, and `center` splits the spare
      room in two halves that differ by at most one pixel, the extra pixel
      going right or below. */
  function CalculatePosition(imgWidth: int, imgHeight: int, textWidth: int, textHeight: int,
                             position: string): (p: Point)
    ensures position == "center" ==>
      p.x <= imgWidth - (p.x + textWidth) <= p.x + 1 &&
      p.y <= imgHeight - (p.y + textHeight) <= p.y + 1
    ensures position != "center" ==>
      (if IsRightAnchored(position) then imgWidth - (p.x + textWidth) == Margin else p.x == Margin) &&
      (if IsBottomAnchored(position) then imgHeight - (p.y + textHeight) == Margin else p.y == Margin)
  {
    if position == "top-left" then Point(Margin, Margin)
    else if position == "top-right" then Point(imgWidth - textWidth - Margin, Margin)
    else if position == "bottom-left" then Point(Margin, imgHeight - textHeight - Margin)
    else if position == "bottom-right" then Point(imgWidth - textWidth - Margin, imgHeight - textHeight - Margin)
    // Python's `//` floors; so does Dafny's `/` by a positive divisor.
    else if position == "center" then Point((imgWidth - textWidth) / 2, (imgHeight - textHeight) / 2)
    else Point(Margin, Margin)
  }

  /** Any string other than the four other anchor names lands on the
      top-left corner, the margin away from both edges. */
  lemma UnknownAnchorIsTopLeft(imgWidth: int, imgHeight: int, textWidth: int, textHeight: int,
                               position: string)
    requires position !in {"top-right", "bottom-left", "bottom-right", "center"}
    ensures CalculatePosition(imgWidth, imgHeight, textWidth, textHeight, position) == Point(Margin, Margin)
  {
  }

  /** Whatever the anchor, a text box that fits in the image with room for
      the margin on both sides is drawn wholly inside the image, at least
      the margin away from every edge. */
  lemma {:induction false} InsideWithMargin(imgWidth: int, imgHeight: int, textWidth: int, textHeight: int,
                                             position: string)
    requires textWidth >= 0 && textHeight >= 0
    requires textWidth + 2 * Margin <= imgWidth && textHeight + 2 * Margin <= imgHeight
    ensures var p := CalculatePosition(imgWidth, imgHeight, textWidth, textHeight, position);
      Margin <= p.x && p.x + textWidth + Margin <= imgWidth &&
      Margin <= p.y && p.y + textHeight + Margin <= imgHeight
  {
  }

  /** `center` keeps a text box that fits the image inside it, even without
      room for the margin. */
  lemma {:induction false} CenterInside(imgWidth: int, imgHeight: int, textWidth: int, textHeight: int)
    requires 0 <= textWidth <= imgWidth && 0 <= textHeight <= imgHeight
    ensures var p := CalculatePosition(imgWidth, imgHeight, textWidth, textHeight, "center");
      0 <= p.x && p.x + textWidth <= imgWidth && 0 <= p.y && p.y + textHeight <= imgHeight
  {
  }
}

=== FILE: resize.dfy ===
/**
  * The size arithmetic of `PhotoWatermark.resize_image` and the check in
  * `add_watermark` that decides whether it runs at all. The pixels are not
  * modelled, only the target size handed to Pillow's `resize`.
  */
module Resize {
  import opened Wrappers

  datatype Size = Size(width: nat, height: nat)

  predicate Positive(s: Size)
  {
    s.width >= 1 && s.height >= 1
  }

  /** `max(1, n)`. */
  function AtLeastOne(n: int): (r: nat)
    ensures r >= 1 && r >= n
    ensures n >= 1 ==> r == n
  {
    if n < 1 then 1 else n
  }

  /** Floor division by a positive divisor brackets the dividend. */
  lemma DivBounds(a: int, b: int)
    requires b > 0
    ensures (a / b) * b <= a < (a / b + 1) * b
  {
  }

  /** `AtLeastOne(a / b)`, with the bracketing it satisfies. */
  function ScaledSide(a: int, b: int): (r: nat)
    requires b > 0
    ensures r >= 1
    ensures r == 1 || r * b <= a
    ensures a < (r + 1) * b
  {
    DivBounds(a, b);
    AtLeastOne(a / b)
  }

  /** `resize_image(img, mode, value)` on the image's size, with an integer
      value. `int(h * (target_w / w))` is computed through floating point in
      the source; here it is the exact floor, which is what `max(1, ...)`
      sees for every non-positive product as well. Three exceptions end in
      the `except` branch and give back the image unchanged: a zero source
      side divides by zero, and Pillow rejects a target side below 1. */
  function ResizeImage(size: Size, mode: string, value: int): (r: Size)
    // Every size the function produces from a real image is at least 1 x 1.
    ensures Positive(size) ==> Positive(r)
    // Unknown modes and failed resizes leave the size as it was.
    ensures mode !in {"width", "height", "percent"} ==> r == size
    // `width`: the requested width, and the height that keeps the aspect
    // ratio, rounded down but never below one pixel.
    ensures mode == "width" && size.width >= 1 && value >= 1 ==>
      r.width == value && r.height >= 1 &&
      (r.height == 1 || r.height * size.width <= size.height * value) &&
      size.height * value < (r.height + 1) * size.width
    ensures mode == "height" && size.height >= 1 && value >= 1 ==>
      r.height == value && r.width >= 1 &&
      (r.width == 1 || r.width * size.height <= size.width * value) &&
      size.width * value < (r.width + 1) * size.height
    // A zero source side (division by zero) or a target side below 1
    // (rejected by Pillow) ends in the `except` branch: the size is kept.
    ensures mode == "width" && (size.width == 0 || value < 1) ==> r == size
    ensures mode == "height" && (size.height == 0 || value < 1) ==> r == size
    // `percent`: each side scaled by value/100, rounded down, at least 1.
    ensures mode == "percent" ==>
      r.width >= 1 && r.height >= 1 &&
      (r.width == 1 || r.width * 100 <= size.width * value) && size.width * value < (r.width + 1) * 100 &&
      (r.height == 1 || r.height * 100 <= size.height * value) && size.height * value < (r.height + 1) * 100
  {
    if mode == "width" then
      if size.width == 0 || value < 1 then size
      else Size(value, ScaledSide(size.height * value, size.width))
    else if mode == "height" then
      if size.height == 0 || value < 1 then size
      else Size(ScaledSide(size.width * value, size.height), value)
    else if mode == "percent" then
      Size(ScaledSide(size.width * value, 100), ScaledSide(size.height * value, 100))
    else size
  }

  /** Python truthiness of the two arguments: a missing or empty mode, and a
      missing or zero value, are false. */
  predicate ResizeRequested(mode: Option<string>, value: Option<int>)
  {
    mode.Some? && mode.value != "" && value.Some? && value.value != 0
  }

  /** `if resize_mode and resize_value: img = self.resize_image(...)`. */
  function ApplyResize(size: Size, mode: Option<string>, value: Option<int>): (r: Size)
    ensures !ResizeRequested(mode, value) ==> r == size
    ensures Positive(size) ==> Positive(r)
  {
    if ResizeRequested(mode, value) then ResizeImage(size, mode.value, value.value) else size
  }

  lemma MulDivCancel(a: int, b: int)
    requires b > 0
    ensures a * b / b == a
  {
    var q := a * b / b;
    DivBounds(a * b, b);
    if q < a {
      MulMonotone(q + 1, a, b);
    } else if q > a {
      MulMonotone(a + 1, q, b);
    }
  }

  lemma MulMonotone(x: int, y: int, b: int)
    requires x <= y && b > 0
    ensures x * b <= y * b
  {
    assert y * b - x * b == (y - x) * b;
  }

  /** Asking for the width an image already has gives back its size. */
  lemma {:induction false} SameWidthIsIdentity(size: Size)
    requires Positive(size)
    ensures ResizeImage(size, "width", size.width) == size
  {
    MulDivCancel(size.height, size.width);
  }

  lemma {:induction false} SameHeightIsIdentity(size: Size)
    requires Positive(size)
    ensures ResizeImage(size, "height", size.height) == size
  {
    MulDivCancel(size.width, size.height);
  }

  /** Resizing is idempotent: a second `width` (or `height`) resize to the
      side the first one produced changes nothing more. */
  lemma {:induction false} ResizeIdempotent(size: Size, mode: string, value: int)
    requires Positive(size)
    ensures var r := ResizeImage(size, mode, value);
      ResizeImage(r, "width", r.width) == r && ResizeImage(r, "height", r.height) == r
  {
    var r := ResizeImage(size, mode, value);
    SameWidthIsIdentity(r);
    SameHeightIsIdentity(r);
  }

  /** The truthiness check matters: `percent` with value 0 would shrink any
      image to 1 x 1, but a zero value is falsy, so the image keeps its
      size. */
  lemma ZeroPercentIsSkipped(size: Size)
    ensures ResizeImage(size, "percent", 0) == Size(1, 1)
    ensures ApplyResize(size, Some("percent"), Some(0)) == size
  {
  }
}

=== FILE: text.dfy ===
/**
  * The few Python `str` operations the watermark tool relies on, over
  * `string` (a sequence of Unicode characters): whitespace as `str.isspace`
  * sees it, `strip()`, `lower()` on ASCII letters, `isdigit()` on ASCII
  * digits, and zero-padded decimal rendering as `strftime` writes it.
  */
module Text {

  /** The characters for which Python's `str.isspace()` (and `\s` in a `str`
      regular expression) holds: tab to carriage return, the four
      information separators, space, NEL, no-break space, and the Unicode
      space separators and line/paragraph separators. */
  predicate IsSpace(c: char)
  {
    ('\t' <= c <= '\r') || ('\U{1C}' <= c <= '\U{1F}') || c == ' ' ||
    c == '\U{85}' || c == '\U{A0}' || c == '\U{1680}' ||
    ('\U{2000}' <= c <= '\U{200A}') || c == '\U{2028}' || c == '\U{2029}' ||
    c == '\U{202F}' || c == '\U{205F}' || c == '\U{3000}'
  }

  predicate IsDigit(c: char)
  {
    '0' <= c <= '9'
  }

  /** `s.isdigit()` for ASCII digits: non-empty and digits only. */
  predicate AllDigits(s: string)
  {
    |s| > 0 && forall i :: 0 <= i < |s| ==> IsDigit(s[i])
  }

  function DigitValue(c: char): (d: nat)
    requires IsDigit(c)
    ensures d < 10
  {
    (c as int - '0' as int) as nat
  }

  function DigitChar(d: nat): (c: char)
    requires d < 10
    ensures IsDigit(c) && DigitValue(c) == d
  {
    (d + '0' as int) as char
  }

  /** The value of a string of decimal digits, read most significant first
      (what `int(s)` gives for such a string). */
  function DigitsValue(s: string): nat
    requires forall i :: 0 <= i < |s| ==> IsDigit(s[i])
  {
    if s == [] then 0 else 10 * DigitsValue(s[..|s| - 1]) + DigitValue(s[|s| - 1])
  }

  function Pow10(k: nat): (p: nat)
    ensures p >= 1
  {
    if k == 0 then 1 else 10 * Pow10(k - 1)
  }

  /** Exactly `width` decimal digits of `n`, zero-padded on the left, as
      `%02d` / `%04d` write a value that fits. */
  function Padded(n: nat, width: nat): (s: string)
    requires n < Pow10(width)
    ensures |s| == width
    ensures forall i :: 0 <= i < |s| ==> IsDigit(s[i])
    ensures DigitsValue(s) == n
  {
    if width == 0 then ""
    else
      var s := Padded(n / 10, width - 1) + [DigitChar(n % 10)];
      assert s[..|s| - 1] == Padded(n / 10, width - 1);
      s
  }

  /** The shortest decimal rendering of `n` (what `str(n)` gives). */
  function Decimal(n: nat): (s: string)
    ensures AllDigits(s)
    ensures DigitsValue(s) == n
    ensures |s| == 1 || s[0] != '0'
  {
    if n < 10 then [DigitChar(n)]
    else
      var s := Decimal(n / 10) + [DigitChar(n % 10)];
      assert s[..|s| - 1] == Decimal(n / 10);
      s
  }

  /** The ASCII case mapping of `str.lower()`. Among characters outside
      ASCII only KELVIN SIGN and LATIN CAPITAL I WITH DOT lower to something
      containing an ASCII letter; they are left unchanged here. */
  function LowerChar(c: char): (l: char)
  {
    if 'A' <= c <= 'Z' then (c as int + 32) as char else c
  }

  predicate IsLower(s: string)
  {
    forall i :: 0 <= i < |s| ==> !('A' <= s[i] <= 'Z')
  }

  function Lower(s: string): (r: string)
    ensures |r| == |s|
    ensures forall i :: 0 <= i < |s| ==> r[i] == LowerChar(s[i])
    ensures IsLower(r)
  {
    seq(|s|, i requires 0 <= i < |s| => LowerChar(s[i]))
  }

  function UpperChar(c: char): (u: char)
  {
    if 'a' <= c <= 'z' then (c as int - 32) as char else c
  }

  /** `str.upper()` on ASCII letters. */
  function Upper(s: string): (r: string)
    ensures |r| == |s|
    ensures forall i :: 0 <= i < |s| ==> r[i] == UpperChar(s[i])
    ensures forall i :: 0 <= i < |r| ==> !('a' <= r[i] <= 'z')
  {
    seq(|s|, i requires 0 <= i < |s| => UpperChar(s[i]))
  }

  /** Upper-casing changes nothing that lower-casing then sees. */
  lemma LowerOfUpper(s: string)
    ensures Lower(Upper(s)) == Lower(s)
  {
  }

  /** The number of whitespace characters `s` starts with. */
  function LeadingSpaces(s: string): (n: nat)
    ensures n <= |s|
    ensures forall i :: 0 <= i < n ==> IsSpace(s[i])
    ensures n == |s| || !IsSpace(s[n])
  {
    if s != [] && IsSpace(s[0]) then 1 + LeadingSpaces(s[1..]) else 0
  }

  function TrimEnd(s: string): (r: string)
    ensures |r| <= |s| && r == s[..|r|]
    ensures forall i :: |r| <= i < |s| ==> IsSpace(s[i])
    ensures r == [] || !IsSpace(r[|r| - 1])
  {
    if s != [] && IsSpace(s[|s| - 1]) then TrimEnd(s[..|s| - 1]) else s
  }

  /** `s.strip()`: `s` without its leading and trailing whitespace. */
  function Strip(s: string): (r: string)
    ensures LeadingSpaces(s) + |r| <= |s|
    ensures r == s[LeadingSpaces(s)..LeadingSpaces(s) + |r|]
    ensures forall i :: LeadingSpaces(s) + |r| <= i < |s| ==> IsSpace(s[i])
    ensures r == [] || (!IsSpace(r[0]) && !IsSpace(r[|r| - 1]))
    ensures r == [] <==> forall i :: 0 <= i < |s| ==> IsSpace(s[i])
  {
    var n := LeadingSpaces(s);
    TrimEnd(s[n..])
  }

  /** The whitespace `int()` and `float()` skip around a number. CPython
      maps each non-ASCII character that `str.isspace` accepts to a space and
      then skips ASCII tab to carriage return and space, so the four ASCII
      information separators U+001C..U+001F, which `str.isspace` accepts,
      stay in the text and make it unreadable. */
  predicate IsNumberSpace(c: char)
  {
    IsSpace(c) && !('\U{1C}' <= c <= '\U{1F}')
  }

  function LeadingNumberSpaces(s: string): (n: nat)
    ensures n <= |s|
    ensures forall i :: 0 <= i < n ==> IsNumberSpace(s[i])
    ensures n == |s| || !IsNumberSpace(s[n])
  {
    if s != [] && IsNumberSpace(s[0]) then 1 + LeadingNumberSpaces(s[1..]) else 0
  }

  function TrimNumberEnd(s: string): (r: string)
    ensures |r| <= |s| && r == s[..|r|]
    ensures forall i :: |r| <= i < |s| ==> IsNumberSpace(s[i])
    ensures r == [] || !IsNumberSpace(r[|r| - 1])
  {
    if s != [] && IsNumberSpace(s[|s| - 1]) then TrimNumberEnd(s[..|s| - 1]) else s
  }

  /** The text `int()` and `float()` go on to read: `s` without the
      leading and trailing whitespace they skip. */
  function NumberStrip(s: string): (r: string)
    ensures LeadingNumberSpaces(s) + |r| <= |s|
    ensures r == s[LeadingNumberSpaces(s)..LeadingNumberSpaces(s) + |r|]
    ensures forall i :: LeadingNumberSpaces(s) + |r| <= i < |s| ==> IsNumberSpace(s[i])
    ensures r == [] || (!IsNumberSpace(r[0]) && !IsNumberSpace(r[|r| - 1]))
  {
    var n := LeadingNumberSpaces(s);
    TrimNumberEnd(s[n..])
  }

  /** Spaces up to the first character that is not one. */
  lemma {:induction false} LeadingSpacesAt(s: string, n: nat)
    requires n < |s| && !IsSpace(s[n])
    requires forall i :: 0 <= i < n ==> IsSpace(s[i])
    ensures LeadingSpaces(s) == n
  {
    if n > 0 {
      LeadingSpacesAt(s[1..], n - 1);
    }
  }

  /** Text that reads as digits once the number whitespace is skipped is
      exactly what `strip()` leaves: a digit is no whitespace of either
      kind, and number whitespace is whitespace. */
  lemma {:induction false} NumberStripAgrees(s: string)
    requires AllDigits(NumberStrip(s))
    ensures NumberStrip(s) == Strip(s)
  {
    var t := NumberStrip(s);
    var n := LeadingNumberSpaces(s);
    assert s[n] == t[0];
    LeadingSpacesAt(s, n);
    assert s[n + |t| - 1] == t[|t| - 1];
  }

  /** What `strip()` leaves has no number whitespace at its ends either. */
  lemma NumberStripOfStripped(s: string)
    ensures NumberStrip(Strip(s)) == Strip(s)
  {
    var t := Strip(s);
    if t != [] {
      assert LeadingNumberSpaces(t) == 0;
    }
  }

  /** `s.lstrip(c)`: `s` without the copies of `c` it starts with. */
  function LStrip(s: string, c: char): (r: string)
    ensures |r| <= |s| && r == s[|s| - |r|..]
    ensures forall i :: 0 <= i < |s| - |r| ==> s[i] == c
    ensures r == [] || r[0] != c
  {
    if s != [] && s[0] == c then LStrip(s[1..], c) else s
  }
}

=== FILE: wrappers.dfy ===
/** Optional values and results with an error, as used throughout the model. */
module Wrappers {

  /** `None` stands for Python's `None` (an absent value). */
  datatype Option<+T> = None | Some(value: T)

  /** A value, or the error that a Python caller would have seen raised. */
  datatype Result<+T, +E> = Ok(value: T) | Err(error: E)
}
